=== FILE: README.md ===
# Telegram reactions bot, modelled in Dafny

The bot adds a keyboard of emoji buttons under media posted in a Telegram
chat. Pressing a button, or replying to the bot's message with `+` and an
emoji, casts a vote. Each user holds at most one vote per message. Voting the
same emoji again retracts the vote, and voting another emoji switches it. After
every vote the keyboard is rebuilt: the chat's default reactions come first, in
configured order, each with its count. The other emoji that have votes follow.
Buttons go in rows of at most eight. An administrator sets the defaults with
`/edit 👍 👎 …`. The bot polls `getUpdates` with an offset one past the newest
update of the last batch. After an empty batch the next poll carries no offset.

The model covers the parts of `index.js` and `modules/` that decide what the
bot does:

- `keyboards.dfy` (module `Keyboards`): buttons with and without a count, and
  the split of a button list into rows (`modules/keyboards.js`).
- `offsets.dfy` (module `Offsets`): the polling offset (`calculateOffset`).
- `tallies.dfy` (module `Tallies`): the in-memory `Map` from emoji to count,
  including its insertion order.
- `ballots.dfy` (module `Ballots`): a message's reaction records. These are
  what the database functions `getReaction`, `saveReaction`, `deleteReaction`
  and `countReactions` read and write.
- `reactions.dfy` (module `Reactions`): `handleReaction`, that is, the vote
  toggle and the keyboard it renders.
- `commands.dfy` (module `Commands`): `handleBotCommand`. This covers command
  parsing, the `/edit` permission rule, and the parsing of the reaction list
  (`trim`, `split(/\s+/)`, `Set`, `delete('')`).
- `router.dfy` (module `Router`): `handleUpdate` as a pure step. It takes the
  bot's state and one update, and returns the new state and the list of Bot
  API requests.
- `scenarios.dfy` (module `Scenarios`): concrete runs, such as a voting
  sequence, an `/edit` by an administrator and by a member, and a media-group
  burst.
- `telegram.dfy`, `wrappers.dfy` and `seqs.dfy` hold the Telegram records, and
  `Option` and sequence helpers.

The state is three things:

- the last media group id;
- the chat settings, as a map from chat to default reactions;
- the reaction records, as a map from (chat, message) to the list of records.

Requests are the abstract `Action` values. The chat member status that
`getChatMember` would return is a function in `Router.Env`.

## Model

| member | source | states |
|---|---|---|
| Keyboards.Make | modules/keyboards.js:7-9 | A bare button shows its text and sends its text back. It is exactly the counted button with count 0. |
| Keyboards.MakeWithCount | modules/keyboards.js:11-16 | The callback data is always the plain emoji text. The label is the text, followed by a space and the decimal count exactly when the count is positive. The count shown is the count when positive, otherwise none. The shown digits never start with '0'. |
| Keyboards.Decimal | modules/keyboards.js:14 | A count is written as at least one decimal digit. It starts with '0' exactly when the count is 0, so there is no leading zero. |
| Keyboards.DecimalRoundTrip | modules/keyboards.js:14 | The decimal digits appended to a label read back as the same count. |
| Keyboards.CanonicalDecimal | modules/keyboards.js:14 | Digits without a leading zero are exactly how their value is written. Each count has one written form. |
| Keyboards.CountLabel | modules/keyboards.js:11-16 | A button whose callback data is the emoji and whose label shows a positive count without a leading zero is exactly the button `makeWithCount` builds for that count. |
| Keyboards.MakeInlineKeyboard | modules/keyboards.js:25-35 | Reading the rows in order gives back the button list unchanged. Every row is non-empty and has at most `maxColumns` buttons. Every row but the last is full. The number of rows is the ceiling of buttons / maxColumns. |
| Keyboards.SeventeenButtons | modules/keyboards.js:4-33 | With MAX_COLUMNS = 8, seventeen buttons give rows of 8, 8 and 1. |
| Keyboards.EmptyKeyboard | modules/keyboards.js:25-35 | No buttons give a keyboard with no rows. |
| Offsets.MostRecent | modules/tgBotApi.js:38-40 | The update the `reduce` keeps is one of the batch, and no update in the batch has a larger id. |
| Offsets.CalculateOffset | modules/tgBotApi.js:28-44 | There is no offset exactly when the batch is empty. Otherwise the offset is larger than every update id of the batch, and is one past one of them. |
| Offsets.SingleUpdateOffset | modules/tgBotApi.js:33-35 | A batch of one update gives that update's id plus one. |
| Offsets.OffsetIgnoresOrder | modules/tgBotApi.js:37-41 | Two batches with the same updates in any order give the same offset. |
| Tallies.Put | index.js:62-78 | `Map.set`: the entry reads the new count, and every other entry is unchanged. An existing key keeps its place, and a new key goes last. |
| Tallies.Remove | index.js:86-88 | `Map.delete`: the entry is gone, and the other entries keep their counts and their order. |
| Tallies.TotalPut | index.js:62-78 | Setting one entry changes the tally's total by exactly that entry's change. |
| Ballots.VoteOf | index.js:58 | The user has no vote exactly when no record is theirs. A vote found is a record of theirs. |
| Ballots.Drop | index.js:61 | After deleting the user's record, the records are exactly the earlier records not belonging to the user. |
| Ballots.Emojis | index.js:52-56 | The grouped emoji are distinct, and are exactly those with at least one record. |
| Ballots.CountVotes | index.js:52-56 | The tally read from the store counts, for every emoji, exactly its records. Every listed count is at least 1. |
| Ballots.VoteIsCounted | index.js:58-63 | A user's stored vote is counted, so decrementing it never goes below zero. |
| Ballots.DropCount | index.js:61-64 | Deleting the user's record takes exactly one vote off the emoji the user voted, and nothing off any other emoji. |
| Ballots.CountAppend | index.js:66-78 | Saving a record adds one vote to its emoji's count, and nothing to any other emoji. |
| Ballots.Revote | index.js:59-79 | Deleting a user's record and saving a new one keeps one record per user. The user's vote becomes the new one, and no other user's vote changes. |
| Reactions.Toggle | index.js:58-79 | Voting the stored emoji again retracts the vote, and any other emoji becomes the vote. Each count changes by minus one for the old vote and plus one for the new. An emoji already in the tally keeps its place, even at count 0, and a new emoji goes last. |
| Reactions.ToggleTotal | index.js:59-79 | The total number of votes grows by one for a first vote, is unchanged by a switch, and shrinks by one for a retraction. |
| Reactions.VoteTwiceRetracts | index.js:59-79 | Two votes for the same emoji from no vote leave no vote and the original counts. |
| Reactions.DefaultButtons | index.js:84-94 | Exactly one button per default reaction. The working tally stays well formed. |
| Reactions.ExtraKeys | index.js:95-99 | The extra buttons' emoji are exactly the tally's emoji that are not defaults and have a positive count. Each appears once. |
| Reactions.RenderSpec | index.js:84-100 | The keyboard lists every default first, in order, with its count. A default is bare when it has no votes or repeats an earlier default. Then come exactly the other emoji with votes, with their counts, in tally order. Nothing else is listed. |
| Reactions.NoVotesShowsBareDefaults | index.js:84-94 | With no votes, the buttons are the defaults, bare and in order, and nothing else. |
| Reactions.HandleReaction | index.js:47-102 | The voter's vote toggles, and every other user's vote stays. The store keeps one record per user. Each count changes by minus one for the old vote and plus one for the new. The shown tally agrees, emoji by emoji, with a recount of the written records. Its order, which the extra buttons follow, is the recount's order before the vote, with a new emoji last. That can differ from a recount after the vote. A keyboard is rendered exactly when the chat has settings. |
| Reactions.WrittenRecords | index.js:58-79 | The user's record is deleted. A new record for the voted emoji is appended, unless the vote was retracted. |
| Reactions.RecountAfterVote | index.js:52-79 | The working tally after the toggle agrees, emoji by emoji, with a recount of the records written. |
| Commands.Slice | index.js:12 | `slice` clamps its indices to the text. With both inside it takes exactly that part. An end past the text stops at the end. A start at or past the end, or an end not after the start, gives the empty text. |
| Commands.SplitOn | index.js:13 | `split('@')` gives at least one piece. No piece contains '@'. Joining the pieces with '@' gives back the text. |
| Commands.ParseCommandName | index.js:13 | Neither the command nor the bot name contains '@'. A bot name is present exactly when the token contains '@'. Without '@' the command is the whole token. With '@' the token starts with the command, '@' and the bot name, and what follows is either nothing or a further '@'. |
| Commands.ParseCommandMention | index.js:13-14 | `cmd@bot` is read as command `cmd` addressed to `bot`. |
| Commands.Trim | index.js:31 | The trimmed argument is one slice of the argument with only whitespace outside it. It neither starts nor ends with whitespace. |
| Commands.SplitWords | index.js:31 | Splitting at whitespace gives at least one word, and no word contains whitespace. |
| Commands.SplitWordsSpec | index.js:31 | `split(/\s+/)` is the same as collapsing every maximal whitespace run to one space and splitting at the spaces. So the words are exactly the text between whitespace runs, in order, with an empty word for whitespace at either end. |
| Commands.SplitWordsNoEmpty | index.js:31 | A non-empty text without whitespace at either end splits into non-empty words only. |
| Commands.Dedup | index.js:32-34 | The list through a `Set` has no repeats and has the same members. They come in the order of their first appearance in the input. |
| Commands.DropEmpty | index.js:33 | `delete('')` removes exactly the empty word. The rest keep their order and their number of occurrences, and a distinct list stays distinct. |
| Commands.ParseReactions | index.js:30-34 | The stored reactions are distinct, non-empty and free of whitespace. They are exactly the non-empty words of the argument, in the order of their first appearance. |
| Commands.ParseReactionsRoundTrip | index.js:30-35 | Writing a stored reaction list after `/edit`, separated by spaces, and parsing it again gives back the same list. |
| Commands.EmptyArgument | index.js:30-34 | A bare `/edit ` stores the empty list. |
| Commands.HandleBotCommand | index.js:11-43 | One command has at most one effect, addressed to the command's own chat. A command naming another bot has no effect. |
| Commands.EditPermission | index.js:20-39 | `/edit` saves exactly when it is addressed to this bot and the sender may edit, and then it saves the parsed argument. It sends the admin-only notice, as a reply, exactly when the sender may not edit. |
| Commands.HelpAndUnknownCommands | index.js:16-19 | An addressed `/help` sends the help text, not as a reply. Any command other than `/help` and `/edit` does nothing. |
| Router.CommandEntities | index.js:110 | The command entities are exactly the message's entities of type `bot_command`, each as often as in the message and in the message's order. |
| Router.Classify | index.js:107-176 | The route is chosen by precedence, each case stated as an if-and-only-if. Commands come first. A '+' reply to the bot comes only without commands. A new attachment is a message from someone else with no text. A button press is a callback query. |
| Router.CommandSave | index.js:20-39 | One command saves for its chat exactly when it is an `/edit` addressed to this bot that the sender may perform. It then saves the parsed argument. |
| Router.LastEditSaved | index.js:112-114 | Over the commands of a message, the last save for the chat is the parsed argument of the last permitted `/edit`. There is none when no `/edit` is permitted. |
| Router.RunCommands | index.js:111-115 | Each chat ends with the reactions of the last save naming it. A chat that no save names keeps its settings, and so does every chat other than the message's. The requests are the commands' notices, in command order, all to the message's chat. |
| Router.ApplyEffects | index.js:16-39 | A chat named by a save ends with the last such save's reactions. A chat that no save names keeps its settings. The requests are exactly the effects' notices, in order. |
| Router.React | index.js:47-102 | A reaction keeps the store consistent and changes only the records of the target message. |
| Router.Step | index.js:104-184 | Every update keeps the store at one record per user per message. |
| Router.ReactToggles | index.js:47-102 | Through the router, the vote toggles and no other user's vote changes. Exactly one keyboard replacement is sent when the chat has settings, and none otherwise. It renders a tally that agrees, emoji by emoji, with a recount of the message's records. The tally keeps the recount's order before the vote, with a new emoji last, and the extra buttons follow it. |
| Router.CommandsConsumeUpdate | index.js:107-116 | A message with commands is consumed by them. Records and the media group memory stay. The chat's defaults become the parsed argument of its last permitted `/edit`, or stay when there is none. Other chats keep their settings. The requests are the commands' notices to the chat, in command order. |
| Router.ReactionReplyVotes | index.js:120-127 | A '+' reply to the bot votes the text after the '+' for the reply's sender on the replied-to message. The reply is deleted. |
| Router.ButtonPressVotes | index.js:167-176 | A button press is acknowledged, and then votes the button's emoji for the presser. |
| Router.OwnAndTextMessagesIgnored | index.js:131-134 | The bot's own messages and text messages change nothing and send nothing. |
| Router.OtherUpdatesIgnored | index.js:104-184 | An update that is neither a message nor a callback query changes nothing and sends nothing. |
| Router.MediaGroupDeduplication | index.js:136-163 | A repeat of the last media group changes nothing and sends nothing. Any other attachment remembers its group and gets the initial keyboard. Inside a media group the keyboard comes as a reply. Otherwise the keyboard goes on a copy and the original is deleted. |
| Router.InitialKeyboardShowsDefaults | index.js:148-154 | The first keyboard shows each default bare, in order. It is the keyboard rendered from an empty tally. |
| Scenarios.BareDefaultsRow | index.js:84-100 | Defaults 👍 👎 and no votes give one row: 👍 and 👎 without counts. |
| Scenarios.FirstVote | index.js:73-79 | A first vote writes one record and shows a count of 1. |
| Scenarios.SecondVote | index.js:73-79 | A second user's vote for the same emoji appends a record and shows a count of 2. |
| Scenarios.SwitchVote | index.js:59-71 | A switched vote becomes the latest record. The old emoji and the new emoji each show a count of 1. |
| Scenarios.VoteTwiceOnMessage | index.js:59-79 | Voting the same emoji twice leaves no vote and restores every count. |
| Scenarios.RepeatCollapses | index.js:30-34 | `/edit x y x` stores x, y. |
| Scenarios.AdminEditSaves | index.js:20-36 | An administrator's `/edit x y x` in a group stores x, y for that chat and sends nothing. |
| Scenarios.MemberEditRefused | index.js:20-39 | A plain member's `/edit` changes nothing. It is answered with the admin-only notice, as a reply to the command. |
| Scenarios.OtherBotIgnored | index.js:12-14 | `/edit@otherbot` changes nothing and sends nothing, whoever sends it. |
| Scenarios.MediaGroupBurst | index.js:136-143 | Three attachments of one media group in a row get exactly one keyboard, on the first. |
| Scenarios.OffsetExample | modules/tgBotApi.js:37-41 | Updates 5, 9 and 7 give offset 10, in either order. |

## Left out

- HTTPS transport, JSON encoding, Bot API error handling and `callApiMethod` (modules/tgBotApi.js:46-185): the handlers' requests are abstract `Action` values.
- The preset message texts (modules/tgBotApi.js:8-18): they are the tags `Help` and `PermissionAdmin`.
- The database module is not part of this model. Its functions are modelled by their effect on the records of one message. `countReactions` is assumed to list emoji by their oldest record, because the grouping order of the query is not part of this model.
- `main`, the `getMe` bootstrap and the polling loop (index.js:186-245): the bot identity is a parameter, and the loop is one `Router.Step` per update.
- Concurrency: the handlers are started without `await`, so their store accesses can interleave. The model runs each handler atomically, including the `lastMediaGroupId` update that spans the `await` at index.js:149.
- Failing requests, logging and the `catch` of index.js:178-183: every request of the model succeeds.
  - In the code, a failing awaited request ends `handleUpdate`, and the `catch` logs it. These are `getChatSettings` at index.js:149 and `copyWithKeyboard` at index.js:159. A failing `copyWithKeyboard` skips the `deleteMessage` at index.js:160, while the model still lists the deletion.
  - A failing request that is not awaited ends nothing: `answerCallbackQuery` (index.js:172), `deleteMessage` (index.js:125, 160), `replaceKeyboard` (index.js:101), `sendStandardMessage` (index.js:18, 38), `replyWithKeyboard` (index.js:156). The handler goes on, and the vote is still written.
  - Its rejection escapes the `catch`, and so does any failure inside a handler started without `await` (index.js:113, 124, 173), such as a failing `getChatMember` at index.js:24. On Node 15 and later, with the default settings, such an unhandled rejection reaches the `uncaughtException` handler at index.js:190-193, which stops the process with code 99. The model keeps running.
- The order in which requests reach the Bot API. The handlers of a message's commands are started without `await` (index.js:113). `/edit` awaits `getChatMember` (index.js:24) before it sends its refusal (index.js:38). So for `/edit /help` from a member, the help text can be sent before the refusal. The model lists the notices in command order.
- Reactions.HandleReaction: when a chat has no settings, the code throws at index.js:82 after the records are written. The model writes the records and renders no keyboard. The handler is not awaited, so the throw escapes the `catch` and, as written, stops the process (see above). The model does not stop.
- Reactions.Toggle: the `isNaN` guards are modelled as "an absent count reads as 0". A stored vote missing from the count (NaN in the code) is excluded by the precondition. It cannot happen when the count and the records come from one store.
- Keyboards.MakeInlineKeyboard: requires `maxColumns > 0`. With 0 and at least one button the code loops forever; with no buttons it returns no rows. Every call uses MAX_COLUMNS = 8.
- Commands.IsSpace: only the ASCII whitespace, the no-break space and the byte-order mark are whitespace. The other characters that `trim` and `\s` also match are left out. These are U+1680, U+2000 to U+200A, U+202F, U+205F and U+3000 (space separators), and U+2028 and U+2029 (line and paragraph separators).
- Entity offsets and lengths are counted in characters of the model's strings, not in UTF-16 code units as Telegram counts them.
- Commands.CanEdit: the status `owner` is compared as written. The Bot API reports a chat's owner as `creator`, so as written the owner of a group may not edit. The model keeps the code's behaviour.
- A callback query whose message is missing (too old) is not modelled. The model's callback query always carries its message.
- The help text itself: `/help` is the notice `Help`.

=== FILE: ballots.dfy ===
/**
  The reaction records of one message, as the store keeps them: one record
  per voting user holding the emoji text of that user's current vote. The
  store's own implementation is not part of this model; these functions are
  the contract index.js relies on (`getReaction`, `saveReaction`,
  `deleteReaction`, `countReactions`).
 */
module Ballots {
  import opened Wrappers
  import opened Seqs
  import opened Tallies
  import opened Telegram

  /** One reaction record: `user` currently votes `emoji` on the message. */
  datatype Vote = Vote(user: UserId, emoji: string)

  /** The records of one message, oldest first. */
  type Ballot = seq<Vote>

  /** The store's invariant: a user has at most one record per message. */
  predicate OneVotePerUser(b: Ballot) {
    forall i, j :: 0 <= i < j < |b| ==> b[i].user != b[j].user
  }

  /** `getReaction`: the emoji of the user's record, if there is one. */
  function VoteOf(b: Ballot, user: UserId): (r: Option<string>)
    ensures r.None? <==> forall i :: 0 <= i < |b| ==> b[i].user != user
    ensures r.Some? ==> Vote(user, r.value) in b
  {
    if b == [] then None
    else if b[|b| - 1].user == user then Some(b[|b| - 1].emoji)
    else VoteOf(b[..|b| - 1], user)
  }

  /** `deleteReaction`: the records without the user's. */
  function Drop(b: Ballot, user: UserId): (r: Ballot)
    ensures forall v :: v in r <==> v in b && v.user != user
  {
    if b == [] then []
    else
      var rest := Drop(b[..|b| - 1], user);
      assert b == b[..|b| - 1] + [b[|b| - 1]];
      if b[|b| - 1].user == user then rest else rest + [b[|b| - 1]]
  }

  /** The number of records voting `e`. */
  function CountOf(b: Ballot, e: string): nat {
    if b == [] then 0
    else CountOf(b[..|b| - 1], e) + (if b[|b| - 1].emoji == e then 1 else 0)
  }

  /** The emoji with at least one record, in order of their oldest record. */
  function Emojis(b: Ballot): (r: seq<string>)
    ensures Distinct(r)
    ensures forall e :: e in r <==> CountOf(b, e) > 0
  {
    if b == [] then []
    else
      var earlier := Emojis(b[..|b| - 1]);
      var e := b[|b| - 1].emoji;
      if e in earlier then earlier else earlier + [e]
  }

  /**
    `countReactions`: the records grouped by emoji. The store's grouping
    order is not specified; the model lists groups by their oldest record.
   */
  function CountVotes(b: Ballot): (t: Tally)
    ensures Valid(t)
    ensures forall e :: Get(t, e) == CountOf(b, e)
    ensures forall e :: e in t.counts ==> t.counts[e] >= 1
  {
    var keys := Emojis(b);
    Tally(keys, map e | e in keys :: CountOf(b, e))
  }

  /** A user's record is counted. */
  lemma {:induction false} VoteIsCounted(b: Ballot, user: UserId)
    requires VoteOf(b, user).Some?
    ensures CountOf(b, VoteOf(b, user).value) >= 1
  {
    if b[|b| - 1].user != user {
      VoteIsCounted(b[..|b| - 1], user);
    }
  }

  /** Deleting the user's record takes exactly that record's vote off its emoji's count. */
  lemma {:induction false} DropCount(b: Ballot, user: UserId, e: string)
    requires OneVotePerUser(b)
    ensures CountOf(Drop(b, user), e) == CountOf(b, e) - (if VoteOf(b, user) == Some(e) then 1 else 0)
  {
    if b != [] {
      var earlier := b[..|b| - 1];
      var last := b[|b| - 1];
      assert OneVotePerUser(earlier);
      DropCount(earlier, user, e);
      if last.user == user {
        assert VoteOf(earlier, user).None? by {
          forall i | 0 <= i < |earlier|
            ensures earlier[i].user != user
          {
            assert earlier[i] == b[i];
          }
        }
      } else {
        CountAppend(Drop(earlier, user), last, e);
      }
    }
  }

  /** Appending a record adds one vote to its emoji's count. */
  lemma CountAppend(b: Ballot, v: Vote, e: string)
    ensures CountOf(b + [v], e) == CountOf(b, e) + (if v.emoji == e then 1 else 0)
  {
    assert (b + [v])[..|b + [v]| - 1] == b;
  }

  /** Deleting the user's record and appending a new one for them keeps one record per user. */
  lemma Revote(b: Ballot, user: UserId, emoji: string)
    requires OneVotePerUser(b)
    ensures OneVotePerUser(Drop(b, user))
    ensures OneVotePerUser(Drop(b, user) + [Vote(user, emoji)])
    ensures VoteOf(Drop(b, user), user) == None
    ensures VoteOf(Drop(b, user) + [Vote(user, emoji)], user) == Some(emoji)
    ensures forall u :: u != user ==> VoteOf(Drop(b, user), u) == VoteOf(b, u)
    ensures forall u :: u != user ==> VoteOf(Drop(b, user) + [Vote(user, emoji)], u) == VoteOf(b, u)
  {
    DropKeepsOneVote(b, user);
    var d := Drop(b, user);
    var d' := d + [Vote(user, emoji)];
    assert d'[..|d'| - 1] == d;
    forall u | u != user
      ensures VoteOf(d, u) == VoteOf(b, u)
    {
      DropKeepsVote(b, user, u);
    }
  }

  lemma {:induction false} DropKeepsOneVote(b: Ballot, user: UserId)
    requires OneVotePerUser(b)
    ensures OneVotePerUser(Drop(b, user))
  {
    if b != [] {
      var earlier := b[..|b| - 1];
      var last := b[|b| - 1];
      assert OneVotePerUser(earlier);
      DropKeepsOneVote(earlier, user);
      var rest := Drop(earlier, user);
      if last.user != user {
        forall i | 0 <= i < |rest|
          ensures rest[i].user != last.user
        {
          assert rest[i] in earlier;
          var k :| 0 <= k < |earlier| && earlier[k] == rest[i];
          assert b[k] == rest[i];
        }
      }
    }
  }

  lemma {:induction false} DropKeepsVote(b: Ballot, user: UserId, other: UserId)
    requires OneVotePerUser(b) && other != user
    ensures VoteOf(Drop(b, user), other) == VoteOf(b, other)
  {
    if b != [] {
      var earlier := b[..|b| - 1];
      var last := b[|b| - 1];
      assert OneVotePerUser(earlier);
      DropKeepsVote(earlier, user, other);
      if last.user != user {
        var rest := Drop(earlier, user);
        assert (rest + [last])[..|rest + [last]| - 1] == rest;
      }
    }
  }
}

=== FILE: commands.dfy ===
/**
  Bot commands (`handleBotCommand`, index.js): `/help`, and `/edit`, which
  replaces a chat's default reactions.
 */
module Commands {
  import opened Wrappers
  import opened Seqs
  import opened Telegram

  /**
    `String.prototype.slice(from, to)` for non-negative indices: both clamp
    to the length, and an end before the start gives the empty text.
   */
  function Slice(s: string, from: nat, to: nat): (r: string)
    ensures from <= to <= |s| ==> r == s[from..to]
    ensures from <= |s| <= to ==> r == s[from..]
    ensures to <= from || |s| <= from ==> r == []
  {
    var lo := if from < |s| then from else |s|;
    var hi := if to < lo then lo else if to < |s| then to else |s|;
    s[lo..hi]
  }

  // Splitting on a separator character.

  /** The parts joined back with `sep` between them. */
  function Join(parts: seq<string>, sep: string): string {
    if |parts| == 0 then []
    else if |parts| == 1 then parts[0]
    else parts[0] + sep + Join(parts[1..], sep)
  }

  /** `s.split(c)` for a one-character separator: the pieces between the separators. */
  function SplitOn(s: string, sep: char): (parts: seq<string>)
    ensures |parts| >= 1
    ensures forall i :: 0 <= i < |parts| ==> sep !in parts[i]
    ensures Join(parts, [sep]) == s
    decreases |s|
  {
    if sep !in s then [s]
    else
      var i := FirstIndex(s, sep);
      var rest := SplitOn(s[i + 1..], sep);
      var parts := [s[..i]] + rest;
      assert parts[1..] == rest;
      assert s == s[..i] + [sep] + s[i + 1..];
      parts
  }

  /** A command token split at '@': the command, and the bot it is addressed to if any. */
  datatype CommandName = CommandName(command: string, bot: Option<string>)

  /**
    index.js:13: `[command, bot] = command.split('@')` keeps the first two
    pieces: the text up to the first '@', and the text from there up to the
    next '@' or the end.
   */
  function ParseCommandName(token: string): (c: CommandName)
    ensures '@' !in c.command
    ensures c.bot.Some? ==> '@' !in c.bot.value
    ensures c.bot.None? <==> '@' !in token
    ensures c.bot.None? ==> c.command == token
    ensures c.bot.Some? ==> (var n := |c.command| + 1 + |c.bot.value|;
      n <= |token| && token[..n] == c.command + "@" + c.bot.value && (n == |token| || token[n] == '@'))
  {
    var parts := SplitOn(token, '@');
    if |parts| > 1 then
      JoinPrefix(parts[1..], "@");
      CommandName(parts[0], Some(parts[1]))
    else CommandName(parts[0], None)
  }

  /** A joined list starts with its first part, followed by the separator or the end. */
  lemma JoinPrefix(parts: seq<string>, sep: string)
    requires parts != []
    ensures var text := Join(parts, sep);
      |parts[0]| <= |text| && text[..|parts[0]|] == parts[0]
      && (|parts| > 1 ==> text[|parts[0]|..] == sep + Join(parts[1..], sep))
      && (|parts| == 1 ==> text == parts[0])
  {
  }

  /** index.js:14: a command goes on unless it names a bot other than this one (an empty name is falsy). */
  predicate AddressedTo(c: CommandName, username: string) {
    c.bot.None? || c.bot.value == "" || c.bot.value == username
  }

  /** `cmd@bot` with no '@' in either part names `bot`. */
  lemma ParseCommandMention(command: string, bot: string)
    requires '@' !in command && '@' !in bot
    ensures ParseCommandName(command + "@" + bot) == CommandName(command, Some(bot))
  {
    var s := command + "@" + bot;
    var i := FirstIndex(s, '@');
    assert forall j :: 0 <= j < |command| ==> s[j] == command[j];
    assert s[|command|] == '@';
    assert i >= |command|;
    assert i <= |command|;
    assert s[i + 1..] == bot;
  }

  // Whitespace, trimming and word splitting.

  /**
    The whitespace `trim` and `/\s+/` recognise, restricted to the ASCII
    spaces, no-break space and byte-order mark.
   */
  predicate IsSpace(c: char) {
    c == ' ' || c == '\t' || c == '\n' || c == '\r' || c == '\U{000B}' || c == '\U{000C}'
    || c == '\U{00A0}' || c == '\U{FEFF}'
  }

  predicate NoSpace(s: string) {
    forall i :: 0 <= i < |s| ==> !IsSpace(s[i])
  }

  /** `s` without its leading whitespace. */
  function TrimStart(s: string): (r: string)
    ensures |r| <= |s| && r == s[|s| - |r|..]
    ensures r == [] || !IsSpace(r[0])
    ensures forall i :: 0 <= i < |s| - |r| ==> IsSpace(s[i])
  {
    if s != [] && IsSpace(s[0]) then TrimStart(s[1..]) else s
  }

  /** `s` without its trailing whitespace. */
  function TrimEnd(s: string): (r: string)
    ensures |r| <= |s| && r == s[..|r|]
    ensures r == [] || !IsSpace(r[|r| - 1])
    ensures forall i :: |r| <= i < |s| ==> IsSpace(s[i])
  {
    if s != [] && IsSpace(s[|s| - 1]) then TrimEnd(s[..|s| - 1]) else s
  }

  /** `r` is the slice `s[i..j]`, and `s` has only whitespace outside it. */
  predicate CutFrom(s: string, r: string, i: int, j: int) {
    && 0 <= i <= j <= |s| && r == s[i..j]
    && (forall k :: 0 <= k < i ==> IsSpace(s[k]))
    && (forall k :: j <= k < |s| ==> IsSpace(s[k]))
  }

  /** `String.prototype.trim`: `s` with the whitespace at both ends cut off. */
  function Trim(s: string): (r: string)
    ensures r == [] || (!IsSpace(r[0]) && !IsSpace(r[|r| - 1]))
    ensures exists i, j :: CutFrom(s, r, i, j)
  {
    var t := TrimStart(s);
    var r := TrimEnd(t);
    TrimCut(s, t, r);
    r
  }

  lemma TrimCut(s: string, t: string, r: string)
    requires |t| <= |s| && t == s[|s| - |t|..] && forall k :: 0 <= k < |s| - |t| ==> IsSpace(s[k])
    requires |r| <= |t| && r == t[..|r|] && forall k :: |r| <= k < |t| ==> IsSpace(t[k])
    ensures CutFrom(s, r, |s| - |t|, |s| - |t| + |r|)
  {
    var i := |s| - |t|;
    assert r == s[i..i + |r|];
    forall k | i + |r| <= k < |s|
      ensures IsSpace(s[k])
    {
      assert s[k] == t[k - i];
    }
  }

  /** The longest prefix of `s` without whitespace. */
  function Word(s: string): (w: string)
    ensures |w| <= |s| && w == s[..|w|]
    ensures NoSpace(w)
    ensures |w| < |s| ==> IsSpace(s[|w|])
  {
    if s == [] || IsSpace(s[0]) then []
    else
      var w := [s[0]] + Word(s[1..]);
      assert s[..|w|] == [s[0]] + s[1..][..|w| - 1];
      w
  }

  /** `s.split(/\s+/)`: the pieces between maximal runs of whitespace. */
  function SplitWords(s: string): (words: seq<string>)
    ensures |words| >= 1
    ensures forall i :: 0 <= i < |words| ==> NoSpace(words[i])
    decreases |s|
  {
    var w := Word(s);
    if |w| == |s| then [w]
    else
      var after := TrimStart(s[|w|..]);
      assert |after| < |s[|w|..]|;
      [w] + SplitWords(after)
  }

  /** `s` with every maximal run of whitespace replaced by one space. */
  function Collapse(s: string): string {
    if s == [] then []
    else if !IsSpace(s[0]) then [s[0]] + Collapse(s[1..])
    else if |s| > 1 && IsSpace(s[1]) then Collapse(s[1..])
    else " " + Collapse(s[1..])
  }

  /**
    `split(/\s+/)` is the same as collapsing every whitespace run to one
    space and splitting at the spaces; so the words are exactly the text
    between whitespace runs, with an empty word for leading or trailing
    whitespace.
   */
  lemma {:induction false} SplitWordsSpec(s: string)
    ensures SplitWords(s) == SplitOn(Collapse(s), ' ')
    decreases |s|
  {
    var w := Word(s);
    NoBlank(w);
    if |w| == |s| {
      assert w == s;
      CollapseWord(w, []);
      assert w + [] == w;
    } else {
      var after := TrimStart(s[|w|..]);
      CollapseFirstWord(s);
      SplitOnWord(w, Collapse(after));
      SplitWordsSpec(after);
    }
  }

  /** Collapsing text that has whitespace after its first word. */
  lemma CollapseFirstWord(s: string)
    requires |Word(s)| < |s|
    ensures Collapse(s) == Word(s) + " " + Collapse(TrimStart(s[|Word(s)|..]))
  {
    var w := Word(s);
    var rest := s[|w|..];
    assert s == w + rest;
    CollapseWord(w, rest);
    assert rest[0] == s[|w|];
    CollapseRun(rest);
    Associative(w, " ", Collapse(TrimStart(rest)));
  }

  /** A word has no space character in it. */
  lemma NoBlank(w: string)
    requires NoSpace(w)
    ensures ' ' !in w
  {
  }

  lemma {:induction false} CollapseWord(w: string, rest: string)
    requires NoSpace(w)
    ensures Collapse(w + rest) == w + Collapse(rest)
  {
    if w != [] {
      var text := w + rest;
      assert text[0] == w[0] && !IsSpace(w[0]);
      assert text[1..] == w[1..] + rest;
      assert NoSpace(w[1..]);
      CollapseWord(w[1..], rest);
      assert Collapse(text) == [w[0]] + (w[1..] + Collapse(rest));
      assert [w[0]] + (w[1..] + Collapse(rest)) == w + Collapse(rest);
    } else {
      assert w + rest == rest;
    }
  }

  lemma {:induction false} CollapseRun(rest: string)
    requires rest != [] && IsSpace(rest[0])
    ensures Collapse(rest) == " " + Collapse(TrimStart(rest))
  {
    if |rest| > 1 && IsSpace(rest[1]) {
      CollapseRun(rest[1..]);
    }
  }

  lemma SplitOnWord(w: string, tail: string)
    requires ' ' !in w
    ensures SplitOn(w + " " + tail, ' ') == [w] + SplitOn(tail, ' ')
  {
    var text := w + " " + tail;
    assert text[|w|] == ' ';
    var i := FirstIndex(text, ' ');
    assert text[..|w|] == w;
    assert text[i + 1..] == tail;
  }

  /** Text without whitespace at either end splits into non-empty words. */
  lemma {:induction false} SplitWordsNoEmpty(s: string)
    requires s != [] && !IsSpace(s[0]) && !IsSpace(s[|s| - 1])
    ensures forall i :: 0 <= i < |SplitWords(s)| ==> SplitWords(s)[i] != ""
    decreases |s|
  {
    var w := Word(s);
    if |w| < |s| {
      var rest := s[|w|..];
      var after := TrimStart(rest);
      assert rest[|rest| - 1] == s[|s| - 1];
      assert after != [];
      assert after[|after| - 1] == s[|s| - 1];
      SplitWordsNoEmpty(after);
      assert SplitWords(s) == [w] + SplitWords(after);
    }
  }

  // De-duplication, as `new Set(...)` followed by `[...set]`.

  /** The elements of `s` in order of first appearance, each once. */
  function Dedup(s: seq<string>): (r: seq<string>)
    ensures Distinct(r)
    ensures forall x :: x in r <==> x in s
    ensures forall i, j :: 0 <= i < j < |r| ==> FirstIndex(s, r[i]) < FirstIndex(s, r[j])
    decreases |s|
  {
    if s == [] then []
    else
      var p := s[..|s| - 1];
      var earlier := Dedup(p);
      var x := s[|s| - 1];
      assert s == p + [x];
      FirstIndexPrefix(p, [x]);
      if x in earlier then earlier
      else
        FirstIndexAppended(p, x);
        earlier + [x]
  }

  lemma FirstIndexPrefix(p: seq<string>, q: seq<string>)
    ensures forall x :: x in p ==> FirstIndex(p + q, x) == FirstIndex(p, x)
  {
    forall x | x in p
      ensures FirstIndex(p + q, x) == FirstIndex(p, x)
    {
      var i, j := FirstIndex(p + q, x), FirstIndex(p, x);
      assert (p + q)[j] == x;
      assert (p + q)[..j] == p[..j];
    }
  }

  lemma FirstIndexAppended(p: seq<string>, x: string)
    requires x !in p
    ensures FirstIndex(p + [x], x) == |p|
  {
    assert (p + [x])[|p|] == x;
  }

  /** `set.delete('')`: `s` without its empty strings, order kept. */
  function DropEmpty(s: seq<string>): (r: seq<string>)
    ensures forall x :: x in r <==> x in s && x != ""
    ensures Distinct(s) ==> Distinct(r)
    ensures IsSubsequence(r, s)
    ensures multiset(r) == multiset(s)["" := 0]
  {
    if s == [] then []
    else
      var rest := DropEmpty(s[1..]);
      var r := if s[0] == "" then rest else [s[0]] + rest;
      DropEmptyStep(s, rest, r);
      DropEmptyOrderStep(s, rest, r);
      r
  }

  /** One step of `DropEmpty`: membership and distinctness carry from the tail to the whole. */
  lemma DropEmptyStep(s: seq<string>, rest: seq<string>, r: seq<string>)
    requires s != []
    requires forall x :: x in rest <==> x in s[1..] && x != ""
    requires Distinct(s[1..]) ==> Distinct(rest)
    requires r == if s[0] == "" then rest else [s[0]] + rest
    ensures forall x :: x in r <==> x in s && x != ""
    ensures Distinct(s) ==> Distinct(r)
  {
    assert s == [s[0]] + s[1..];
    assert Distinct(s) ==> s[0] !in s[1..];
  }

  /** One step of `DropEmpty`: order and multiplicities carry from the tail to the whole. */
  lemma DropEmptyOrderStep(s: seq<string>, rest: seq<string>, r: seq<string>)
    requires s != []
    requires IsSubsequence(rest, s[1..])
    requires multiset(rest) == multiset(s[1..])["" := 0]
    requires r == if s[0] == "" then rest else [s[0]] + rest
    ensures IsSubsequence(r, s)
    ensures multiset(r) == multiset(s)["" := 0]
  {
    assert s == [s[0]] + s[1..];
    assert multiset(s) == multiset([s[0]]) + multiset(s[1..]);
    if s[0] != "" {
      assert multiset(r) == multiset([s[0]]) + multiset(rest);
      assert r[0] == s[0] && r[1..] == rest;
    }
  }

  /**
    index.js:30-34: the `/edit` argument trimmed, split at whitespace runs,
    de-duplicated keeping first appearances, with the empty word dropped.
   */
  function ParseReactions(argument: string): (reactions: seq<string>)
    ensures Distinct(reactions)
    ensures forall x :: x in reactions ==> x != "" && NoSpace(x)
    ensures forall x :: x in reactions <==> x in SplitWords(Trim(argument)) && x != ""
    ensures forall i, j :: 0 <= i < j < |reactions| ==>
      FirstIndex(SplitWords(Trim(argument)), reactions[i]) < FirstIndex(SplitWords(Trim(argument)), reactions[j])
  {
    var words := SplitWords(Trim(argument));
    StoredWords(words);
    DropEmpty(Dedup(words))
  }

  /**
    The de-duplicated words without the empty one are distinct, are exactly
    the non-empty words, and keep the order of first appearance.
   */
  lemma StoredWords(words: seq<string>)
    requires forall i :: 0 <= i < |words| ==> NoSpace(words[i])
    ensures var r := DropEmpty(Dedup(words));
      && Distinct(r)
      && (forall x :: x in r ==> x != "" && NoSpace(x))
      && (forall x :: x in r <==> x in words && x != "")
      && (forall i, j :: 0 <= i < j < |r| ==> FirstIndex(words, r[i]) < FirstIndex(words, r[j]))
  {
    var d := Dedup(words);
    var r := DropEmpty(d);
    SubsequenceKeepsOrder(r, d);
    forall x | x in r
      ensures x in words && NoSpace(x)
    {
      var k := FirstIndex(words, x);
      assert NoSpace(words[k]);
    }
    forall i, j | 0 <= i < j < |r|
      ensures FirstIndex(words, r[i]) < FirstIndex(words, r[j])
    {
      var a, b := FirstIndex(d, r[i]), FirstIndex(d, r[j]);
      assert d[a] == r[i] && d[b] == r[j];
    }
  }

  /** A list `/edit` can store: distinct, non-empty words without whitespace. */
  predicate ReactionList(reactions: seq<string>) {
    Distinct(reactions) && AllWords(reactions)
  }

  /** Writing a stored list after the command and parsing it again gives the list back. */
  lemma ParseReactionsRoundTrip(reactions: seq<string>)
    requires ReactionList(reactions)
    ensures ParseReactions(" " + Join(reactions, " ")) == reactions
  {
    if reactions == [] {
      EmptyArgument();
      assert " " + Join(reactions, " ") == " ";
    } else {
      WordsRoundTrip(reactions);
    }
  }

  /** The round trip for a non-empty list. */
  lemma WordsRoundTrip(reactions: seq<string>)
    requires ReactionList(reactions) && reactions != []
    ensures ParseReactions(" " + Join(reactions, " ")) == reactions
  {
    var text := Join(reactions, " ");
    JoinShape(reactions);
    TrimPadded(text);
    SplitJoin(reactions);
    DedupDistinct(reactions);
    DropEmptyNoop(reactions);
    ParseReactionsOf(" " + text, reactions);
  }

  /** A bare `/edit ` stores the empty list. */
  lemma EmptyArgument()
    ensures ParseReactions(" ") == []
  {
    var blank := " ";
    TrimPadded([]);
    assert blank == " " + [];
    var words := SplitWords([]);
    assert words == [""];
  }

  /** `ParseReactions` once the argument's words are known. */
  lemma ParseReactionsOf(argument: string, words: seq<string>)
    requires SplitWords(Trim(argument)) == words
    ensures ParseReactions(argument) == DropEmpty(Dedup(words))
  {
  }

  /** Trimming a leading space off text with no outer whitespace gives the text. */
  lemma TrimPadded(text: string)
    requires text == [] || (!IsSpace(text[0]) && !IsSpace(text[|text| - 1]))
    ensures Trim(" " + text) == text
  {
    assert (" " + text)[1..] == text;
    assert TrimStart(" " + text) == TrimStart(text);
    TrimStartNoop(text);
    TrimEndNoop(text);
  }

  /** The joined list is empty or starts and ends with a non-space. */
  lemma {:induction false} JoinShape(reactions: seq<string>)
    requires ReactionList(reactions)
    ensures var text := Join(reactions, " ");
      (reactions == [] <==> text == []) && (text != [] ==> !IsSpace(text[0]) && !IsSpace(text[|text| - 1]))
  {
    if |reactions| > 1 {
      JoinShape(reactions[1..]);
      var text := Join(reactions, " ");
      var tail := Join(reactions[1..], " ");
      assert text == reactions[0] + " " + tail;
      assert text[0] == reactions[0][0];
      assert text[|text| - 1] == tail[|tail| - 1];
    }
  }

  lemma TrimStartNoop(s: string)
    requires s == [] || !IsSpace(s[0])
    ensures TrimStart(s) == s
  {
  }

  lemma TrimEndNoop(s: string)
    requires s == [] || !IsSpace(s[|s| - 1])
    ensures TrimEnd(s) == s
  {
  }

  /** A reaction `/edit` can store: non-empty, without whitespace. */
  predicate IsWord(w: string) {
    w != "" && NoSpace(w)
  }

  /** Every entry is a word. */
  predicate AllWords(reactions: seq<string>) {
    forall i :: 0 <= i < |reactions| ==> IsWord(reactions[i])
  }

  /** Splitting a space-joined list of non-empty, space-free words gives the words back. */
  lemma {:induction false} SplitJoin(reactions: seq<string>)
    requires AllWords(reactions) && reactions != []
    ensures SplitWords(Join(reactions, " ")) == reactions
  {
    var w := reactions[0];
    if |reactions| == 1 {
      WordOf(w, []);
      assert w + [] == w;
    } else {
      var rest := reactions[1..];
      var tail := Join(rest, " ");
      assert Join(reactions, " ") == w + " " + tail;
      assert AllWords(rest);
      assert tail[0] == rest[0][0] by {
        JoinStart(rest);
      }
      SplitWordsStep(w, tail);
      SplitJoin(rest);
    }
  }

  /** A joined list starts with its first word. */
  lemma JoinStart(reactions: seq<string>)
    requires AllWords(reactions) && reactions != []
    ensures |Join(reactions, " ")| >= |reactions[0]|
    ensures Join(reactions, " ")[..|reactions[0]|] == reactions[0]
  {
  }

  /** A word, a space, and text starting with a non-space split into the word and the text's words. */
  lemma SplitWordsStep(w: string, tail: string)
    requires w != [] && NoSpace(w)
    requires tail != [] && !IsSpace(tail[0])
    ensures SplitWords(w + " " + tail) == [w] + SplitWords(tail)
  {
    var text := w + " " + tail;
    WordOf(w, " " + tail);
    assert text == w + (" " + tail);
    assert text[|w|..] == " " + tail;
    assert (" " + tail)[1..] == tail;
    TrimStartNoop(tail);
  }

  /** The first word of `w` followed by a space or nothing is `w`. */
  lemma {:induction false} WordOf(w: string, rest: string)
    requires NoSpace(w)
    requires rest == [] || IsSpace(rest[0])
    ensures Word(w + rest) == w
  {
    if w != [] {
      assert (w + rest)[1..] == w[1..] + rest;
      WordOf(w[1..], rest);
    }
  }

  lemma {:induction false} DedupDistinct(s: seq<string>)
    requires Distinct(s)
    ensures Dedup(s) == s
  {
    if s != [] {
      var earlier := s[..|s| - 1];
      DedupDistinct(earlier);
      assert s[|s| - 1] !in earlier;
    }
  }

  lemma {:induction false} DropEmptyNoop(s: seq<string>)
    requires forall i :: 0 <= i < |s| ==> s[i] != ""
    ensures DropEmpty(s) == s
  {
    if s != [] {
      DropEmptyNoop(s[1..]);
    }
  }

  // The command handler.

  /** The preset texts the handler sends (`presetMessages` in modules/tgBotApi.js). */
  datatype Notice = Help | PermissionAdmin

  /** What one command does: store a chat's default reactions, or send a preset text. */
  datatype Effect =
    | SaveDefaults(chat: ChatId, reactions: seq<string>)
    | SendNotice(chat: ChatId, notice: Notice, replyTo: Option<MessageId>)

  /** index.js:21-27: private chats may always edit; elsewhere only the owner or an administrator. */
  predicate CanEdit(chatType: string, memberStatus: string) {
    chatType == "private" || memberStatus == "owner" || memberStatus == "administrator"
  }

  /** The command token an entity covers (index.js:12). */
  function EntityText(entity: Entity, message: Message): string {
    Slice(message.text, entity.offset, entity.offset + entity.length)
  }

  /** The text after the command token (index.js:30). */
  function ArgumentText(entity: Entity, message: Message): string {
    Slice(message.text, entity.offset + entity.length, |message.text|)
  }

  /**
    `handleBotCommand` for one command entity. `memberStatus` is the
    sender's status in the chat, as `getChatMember` reports it; it is only
    consulted outside private chats.
   */
  function HandleBotCommand(botUsername: string, entity: Entity, message: Message, memberStatus: string)
    : (effects: seq<Effect>)
    ensures |effects| <= 1
    ensures !AddressedTo(ParseCommandName(EntityText(entity, message)), botUsername) ==> effects == []
    ensures forall e :: e in effects ==> e.chat == message.chat.id
  {
    var name := ParseCommandName(EntityText(entity, message));
    if !AddressedTo(name, botUsername) then []
    else if name.command == "/help" then [SendNotice(message.chat.id, Help, None)]
    else if name.command == "/edit" then
      if CanEdit(message.chat.chatType, memberStatus)
      then [SaveDefaults(message.chat.id, ParseReactions(ArgumentText(entity, message)))]
      else [SendNotice(message.chat.id, PermissionAdmin, Some(message.messageId))]
    else []
  }

  /**
    `/edit` stores the parsed reactions exactly when the command is addressed
    to this bot and the sender may edit; it sends the admin-only notice, as a
    reply to the command, exactly when the sender may not.
   */
  lemma EditPermission(botUsername: string, entity: Entity, message: Message, memberStatus: string)
    requires ParseCommandName(EntityText(entity, message)).command == "/edit"
    ensures var effects := HandleBotCommand(botUsername, entity, message, memberStatus);
      var addressed := AddressedTo(ParseCommandName(EntityText(entity, message)), botUsername);
      && ((exists r :: SaveDefaults(message.chat.id, r) in effects)
          <==> addressed && CanEdit(message.chat.chatType, memberStatus))
      && (SendNotice(message.chat.id, PermissionAdmin, Some(message.messageId)) in effects
          <==> addressed && !CanEdit(message.chat.chatType, memberStatus))
      && (addressed && CanEdit(message.chat.chatType, memberStatus) ==>
            effects == [SaveDefaults(message.chat.id, ParseReactions(ArgumentText(entity, message)))])
  {
    var effects := HandleBotCommand(botUsername, entity, message, memberStatus);
    var addressed := AddressedTo(ParseCommandName(EntityText(entity, message)), botUsername);
    if addressed && CanEdit(message.chat.chatType, memberStatus) {
      var r := ParseReactions(ArgumentText(entity, message));
      assert SaveDefaults(message.chat.id, r) in effects;
    }
  }

  /**
    index.js:16-19 and index.js:40-41: an addressed `/help` sends the help text to the
    chat, not as a reply; a command other than `/help` and `/edit` does nothing.
   */
  lemma HelpAndUnknownCommands(botUsername: string, entity: Entity, message: Message, memberStatus: string)
    ensures var effects := HandleBotCommand(botUsername, entity, message, memberStatus);
      var name := ParseCommandName(EntityText(entity, message));
      && (AddressedTo(name, botUsername) && name.command == "/help" ==> effects == [SendNotice(message.chat.id, Help, None)])
      && (name.command != "/help" && name.command != "/edit" ==> effects == [])
  {
  }
}

=== FILE: keyboards.dfy ===
/**
  Inline buttons and their arrangement into rows (modules/keyboards.js).
 */
module Keyboards {

  /** Telegram shows at most this many inline buttons in one row. */
  const MaxColumns: nat := 8

  /** An inline button: the label shown, and the token Telegram sends back when it is pressed. */
  datatype Button = Button(text: string, callbackData: string)

  /** An inline keyboard: its rows, top to bottom. */
  type Keyboard = seq<seq<Button>>

  predicate IsDigit(c: char) {
    '0' <= c <= '9'
  }

  predicate AllDigits(s: string) {
    forall i :: 0 <= i < |s| ==> IsDigit(s[i])
  }

  function Digit(d: nat): (c: char)
    requires d < 10
    ensures IsDigit(c)
  {
    ('0' as int + d) as char
  }

  function DigitValue(c: char): nat
    requires IsDigit(c)
  {
    c as int - '0' as int
  }

  /**
    How JavaScript writes a non-negative integer when it is concatenated to a
    string. This holds below 1e21; from there on JavaScript writes an
    exponent, which no vote count reaches.
   */
  function Decimal(n: nat): (s: string)
    ensures |s| >= 1
    ensures AllDigits(s)
    ensures s[0] == '0' <==> n == 0
    decreases n
  {
    if n < 10 then [Digit(n)] else Decimal(n / 10) + [Digit(n % 10)]
  }

  /** Reads a run of decimal digits back as a number. */
  function ParseDecimal(s: string): nat
    requires AllDigits(s)
  {
    if s == [] then 0 else 10 * ParseDecimal(s[..|s| - 1]) + DigitValue(s[|s| - 1])
  }

  /** Reading back a written count gives the count. */
  lemma {:induction false} DecimalRoundTrip(n: nat)
    ensures ParseDecimal(Decimal(n)) == n
  {
    var s := Decimal(n);
    if n >= 10 {
      DecimalRoundTrip(n / 10);
      assert s[..|s| - 1] == Decimal(n / 10);
      assert DigitValue(s[|s| - 1]) == n % 10;
    }
  }

  /** Digits without a leading zero are the way JavaScript writes their value. */
  lemma {:induction false} CanonicalDecimal(d: string)
    requires d != [] && AllDigits(d) && (d[0] == '0' ==> |d| == 1)
    ensures Decimal(ParseDecimal(d)) == d
    decreases |d|
  {
    var front := d[..|d| - 1];
    var c := d[|d| - 1];
    if front != [] {
      assert front[0] == d[0];
      CanonicalDecimal(front);
      var n := ParseDecimal(d);
      assert n / 10 == ParseDecimal(front) && n % 10 == DigitValue(c);
      assert d == front + [c];
    }
  }

  /**
    The count a button's label shows: the digits after "<callback data> ",
    or 0 when the label carries no such suffix.
   */
  function ShownCount(b: Button): nat {
    var n := |b.callbackData|;
    if |b.text| > n + 1 && b.text[..n] == b.callbackData && b.text[n] == ' ' && AllDigits(b.text[n + 1..])
    then ParseDecimal(b.text[n + 1..])
    else 0
  }

  /** `Button.make`: a bare button whose label is its token. */
  function Make(text: string): (b: Button)
    ensures b.text == text && b.callbackData == text
    ensures b == MakeWithCount(text, 0)
  {
    Button(text, text)
  }

  /**
    `Button.makeWithCount`: the token is always the bare text; the label
    carries " <count>" only for a positive count.
   */
  function MakeWithCount(text: string, count: int): (b: Button)
    ensures b.callbackData == text
    ensures |b.text| >= |text| && b.text[..|text|] == text
    ensures b.text == text <==> count <= 0
    ensures ShownCount(b) == if count > 0 then count else 0
    ensures count > 0 ==> |b.text| > |text| + 1 && b.text[|text| + 1] != '0'
  {
    if count > 0 then
      var b := Button(text + " " + Decimal(count), text);
      assert b.text[|text| + 1..] == Decimal(count);
      DecimalRoundTrip(count);
      b
    else
      Button(text, text)
  }

  /**
    A counted label is fixed by what it shows: a button for `text` whose
    label shows `count` without a leading zero is the one `makeWithCount` builds.
   */
  lemma CountLabel(b: Button, text: string, count: int)
    requires count > 0 && b.callbackData == text
    requires |b.text| > |text| + 1 && b.text[|text| + 1] != '0'
    requires ShownCount(b) == count
    ensures b == MakeWithCount(text, count)
  {
    var digits := b.text[|text| + 1..];
    CanonicalDecimal(digits);
    assert b.text == text + " " + digits;
  }

  /** All buttons of a keyboard, row after row. */
  function Flatten(rows: Keyboard): seq<Button> {
    if rows == [] then [] else rows[0] + Flatten(rows[1..])
  }

  /**
    `makeInlineKeyboard`: consecutive slices of `maxColumns` buttons, the
    last one holding what is left. With `maxColumns` 0 and at least one
    button the source's loop never ends, hence the precondition.
   */
  function MakeInlineKeyboard(buttons: seq<Button>, maxColumns: nat): (rows: Keyboard)
    requires maxColumns > 0
    ensures Flatten(rows) == buttons
    ensures forall i :: 0 <= i < |rows| ==> 0 < |rows[i]| <= maxColumns
    ensures forall i :: 0 <= i < |rows| - 1 ==> |rows[i]| == maxColumns
    ensures |rows| == (|buttons| + maxColumns - 1) / maxColumns
    decreases |buttons|
  {
    if |buttons| == 0 then
      DivUnique(maxColumns - 1, maxColumns, 0, maxColumns - 1);
      []
    else if |buttons| <= maxColumns then
      assert Flatten([buttons]) == buttons + Flatten([]);
      DivUnique(|buttons| + maxColumns - 1, maxColumns, 1, |buttons| - 1);
      [buttons]
    else
      var rest := MakeInlineKeyboard(buttons[maxColumns..], maxColumns);
      var rows := [buttons[..maxColumns]] + rest;
      assert rows[1..] == rest;
      assert buttons == buttons[..maxColumns] + buttons[maxColumns..];
      CeilStep(|buttons|, maxColumns);
      rows
  }

  /** One more full row: ceil(n / k) == 1 + ceil((n - k) / k). */
  lemma CeilStep(n: nat, k: nat)
    requires 0 < k < n
    ensures (n + k - 1) / k == 1 + (n - k + k - 1) / k
  {
    var a := n - 1;
    var q, r := a / k, a % k;
    assert a == q * k + r;
    assert a + k == (q + 1) * k + r;
    DivUnique(a + k, k, q + 1, r);
  }

  /** Euclidean division has one quotient. */
  lemma DivUnique(a: int, k: int, q: int, r: int)
    requires k > 0 && 0 <= r < k && a == q * k + r
    ensures a / k == q
  {
    var q', r' := a / k, a % k;
    assert a == q' * k + r';
    var d := q - q';
    assert d * k == r' - r;
    PositiveMultiple(d, k);
    PositiveMultiple(-d, k);
    assert (-d) * k == -(d * k);
  }

  lemma PositiveMultiple(d: int, k: nat)
    ensures d >= 1 ==> d * k >= k
  {
    if d >= 1 {
      var e := d - 1;
      assert d * k == k + e * k;
    }
  }

  /** Seventeen buttons at the default width make rows of 8, 8 and 1. */
  lemma SeventeenButtons(buttons: seq<Button>)
    requires |buttons| == 17
    ensures var rows := MakeInlineKeyboard(buttons, MaxColumns);
      |rows| == 3 && |rows[0]| == 8 && |rows[1]| == 8 && |rows[2]| == 1
  {
    var rows := MakeInlineKeyboard(buttons, MaxColumns);
    var rest := MakeInlineKeyboard(buttons[8..], MaxColumns);
    var last := MakeInlineKeyboard(buttons[16..], MaxColumns);
    assert rows == [buttons[..8]] + rest;
    assert rest == [buttons[8..][..8]] + MakeInlineKeyboard(buttons[8..][8..], MaxColumns);
    assert buttons[8..][8..] == buttons[16..];
    assert last == [buttons[16..]];
  }

  /** No buttons, no rows. */
  lemma EmptyKeyboard(maxColumns: nat)
    requires maxColumns > 0
    ensures MakeInlineKeyboard([], maxColumns) == []
  {
  }
}

=== FILE: offsets.dfy ===
/**
  The long-polling offset (`calculateOffset` in modules/tgBotApi.js): the
  next `getUpdates` call asks for updates after the newest one received.
 */
module Offsets {
  import opened Wrappers
  import opened Telegram

  /**
    The update the code's `reduce` keeps: starting from the first, an update
    replaces the kept one only when its id is strictly larger.
   */
  function MostRecent(updates: seq<Update>): (u: Update)
    requires |updates| > 0
    ensures u in updates
    ensures forall v :: v in updates ==> v.updateId <= u.updateId
    decreases |updates|
  {
    if |updates| == 1 then updates[0]
    else
      var earlier := updates[..|updates| - 1];
      var acc := MostRecent(earlier);
      var last := updates[|updates| - 1];
      assert updates == earlier + [last];
      if last.updateId > acc.updateId then last else acc
  }

  /** No offset for an empty batch; otherwise one past the largest update id. */
  function CalculateOffset(updates: seq<Update>): (offset: Option<int>)
    ensures offset.None? <==> |updates| == 0
    ensures offset.Some? ==> forall v :: v in updates ==> v.updateId < offset.value
    ensures offset.Some? ==> exists v :: v in updates && offset.value == v.updateId + 1
  {
    if |updates| == 0 then None
    else if |updates| == 1 then Some(updates[0].updateId + 1)
    else Some(MostRecent(updates).updateId + 1)
  }

  /** A batch of one update gives that update's id plus one. */
  lemma SingleUpdateOffset(u: Update)
    ensures CalculateOffset([u]) == Some(u.updateId + 1)
  {
  }

  /** The offset does not depend on the order in which the batch arrived. */
  lemma OffsetIgnoresOrder(a: seq<Update>, b: seq<Update>)
    requires multiset(a) == multiset(b)
    ensures CalculateOffset(a) == CalculateOffset(b)
  {
    assert |a| == |multiset(a)| == |multiset(b)| == |b|;
    if |a| > 0 {
      var oa, ob := CalculateOffset(a).value, CalculateOffset(b).value;
      var va :| va in a && oa == va.updateId + 1;
      var vb :| vb in b && ob == vb.updateId + 1;
      assert va in multiset(b);
      assert vb in multiset(a);
    }
  }
}

=== FILE: reactions.dfy ===
/**
  The vote toggle and the keyboard it renders (`handleReaction`, index.js).
 */
module Reactions {
  import opened Wrappers
  import opened Seqs
  import opened Telegram
  import opened Tallies
  import opened Ballots
  import opened Keyboards

  /** The working tally after a vote, and the voter's vote after it (None once retracted). */
  datatype Outcome = Outcome(tally: Tally, vote: Option<string>)

  /**
    index.js:58-79. A stored vote is taken off its emoji's count; a
    different new token is then added, while the same token retracts the
    vote. With no stored vote the new token is added. A stored vote is always
    counted in the tally the store reports; the code computes NaN otherwise.
    `Map.set` keeps a known emoji in place, even at count 0, and puts a new
    one last.
   */
  function Toggle(t: Tally, prior: Option<string>, token: string): (o: Outcome)
    requires Valid(t)
    requires prior.Some? ==> Get(t, prior.value) >= 1
    ensures Valid(o.tally)
    ensures o.vote == if prior == Some(token) then None else Some(token)
    ensures forall e :: (Get(o.tally, e) ==
      Get(t, e) - (if prior == Some(e) then 1 else 0) + (if o.vote == Some(e) then 1 else 0))
    ensures o.tally.keys == if token in t.counts then t.keys else t.keys + [token]
  {
    match prior
    case Some(previous) =>
      var withdrawn := Put(t, previous, t.counts[previous] - 1);
      if token != previous then Outcome(Put(withdrawn, token, Get(withdrawn, token) + 1), Some(token))
      else Outcome(withdrawn, None)
    case None =>
      Outcome(Put(t, token, Get(t, token) + 1), Some(token))
  }

  /**
    The tally's total moves with the voter: +1 for a first vote, unchanged
    for a switch, -1 for a retraction.
   */
  lemma ToggleTotal(t: Tally, prior: Option<string>, token: string)
    requires Valid(t)
    requires prior.Some? ==> Get(t, prior.value) >= 1
    ensures var o := Toggle(t, prior, token);
      Total(o.tally) == Total(t) - (if prior.Some? then 1 else 0) + (if o.vote.Some? then 1 else 0)
  {
    match prior
    case Some(previous) =>
      var withdrawn := Put(t, previous, t.counts[previous] - 1);
      TotalPut(t, previous, t.counts[previous] - 1);
      if token != previous {
        TotalPut(withdrawn, token, Get(withdrawn, token) + 1);
      }
    case None =>
      TotalPut(t, token, Get(t, token) + 1);
  }

  /** Voting the same token twice from no vote gives the original counts back and no vote. */
  lemma VoteTwiceRetracts(t: Tally, token: string)
    requires Valid(t)
    ensures var first := Toggle(t, None, token);
      var second := Toggle(first.tally, first.vote, token);
      second.vote == None && forall e :: Get(second.tally, e) == Get(t, e)
  {
  }

  /**
    index.js:84-94: one button per default reaction, in order. A default found
    in the working tally shows its count and is deleted from it; any other
    is shown bare.
   */
  function DefaultButtons(work: Tally, defaults: seq<string>): (r: (Tally, seq<Button>))
    requires Valid(work)
    ensures Valid(r.0)
    ensures |r.1| == |defaults|
    decreases |defaults|
  {
    if defaults == [] then (work, [])
    else
      var d := defaults[0];
      var next := if d in work.counts then Remove(work, d) else work;
      var button := if d in work.counts then MakeWithCount(d, work.counts[d]) else Make(d);
      var rest := DefaultButtons(next, defaults[1..]);
      (rest.0, [button] + rest.1)
  }

  /** index.js:95-99: the entries left in the working tally, in its order, with a positive count. */
  function ExtraButtons(keys: seq<string>, work: Tally): seq<Button> {
    if keys == [] then []
    else
      (if Get(work, keys[0]) > 0 then [MakeWithCount(keys[0], Get(work, keys[0]))] else [])
      + ExtraButtons(keys[1..], work)
  }

  /** The buttons of the keyboard shown under a message for tally `t`. */
  function RenderButtons(t: Tally, defaults: seq<string>): seq<Button>
    requires Valid(t)
  {
    var r := DefaultButtons(t, defaults);
    r.1 + ExtraButtons(r.0.keys, r.0)
  }

  /** The keyboard rebuilt after a vote: rendered buttons in rows of at most MaxColumns. */
  function RenderKeyboard(t: Tally, defaults: seq<string>): Keyboard
    requires Valid(t)
  {
    MakeInlineKeyboard(RenderButtons(t, defaults), MaxColumns)
  }

  // Reference description of the rendered buttons.

  /**
    What the `i`-th default reaction shows: its count (bare at 0), except
    that a repeated default is bare because its entry was already consumed.
   */
  function DefaultButtonSpec(t: Tally, defaults: seq<string>, i: nat): Button
    requires i < |defaults|
  {
    var d := defaults[i];
    if d in defaults[..i] then Make(d) else MakeWithCount(d, Get(t, d))
  }

  /** The non-default emoji of `keys` with a positive count, in order. */
  function ExtraKeys(keys: seq<string>, t: Tally, defaults: seq<string>): (r: seq<string>)
    ensures forall e :: e in r <==> e in keys && e !in defaults && Get(t, e) > 0
    ensures Distinct(keys) ==> Distinct(r)
  {
    if keys == [] then []
    else
      var rest := ExtraKeys(keys[1..], t, defaults);
      assert Distinct(keys) ==> keys[0] !in keys[1..];
      if keys[0] !in defaults && Get(t, keys[0]) > 0 then [keys[0]] + rest else rest
  }

  /**
    The rendered keyboard lists every default reaction first, in configured
    order, each with its count (bare when absent or zero), then exactly the
    non-default emoji with a positive count, once each, in tally order.
   */
  lemma RenderSpec(t: Tally, defaults: seq<string>)
    requires Valid(t)
    ensures var buttons := RenderButtons(t, defaults);
      var extras := ExtraKeys(t.keys, t, defaults);
      && |buttons| == |defaults| + |extras|
      && (forall i :: 0 <= i < |defaults| ==> buttons[i] == DefaultButtonSpec(t, defaults, i))
      && (forall j :: 0 <= j < |extras| ==>
            buttons[|defaults| + j] == MakeWithCount(extras[j], Get(t, extras[j])))
  {
    var r := DefaultButtons(t, defaults);
    DefaultButtonsLeaves(t, defaults);
    DefaultButtonsShows(t, defaults);
    var extras := ExtraKeys(t.keys, t, defaults);
    ExtraButtonsSpec(t.keys, t, defaults, r.0);
    LabelledAt(extras, t);
    var buttons := RenderButtons(t, defaults);
    forall i | 0 <= i < |defaults|
      ensures buttons[i] == DefaultButtonSpec(t, defaults, i)
    {
      assert buttons[i] == r.1[i];
    }
    forall j | 0 <= j < |extras|
      ensures buttons[|defaults| + j] == MakeWithCount(extras[j], Get(t, extras[j]))
    {
      assert buttons[|defaults| + j] == ExtraButtons(r.0.keys, r.0)[j];
    }
  }

  /** What DefaultButtons leaves in the working tally: every entry not named by a default, in order. */
  lemma {:induction false} DefaultButtonsLeaves(work: Tally, defaults: seq<string>)
    requires Valid(work)
    ensures var left := DefaultButtons(work, defaults).0;
      && (forall x :: x in left.counts <==> x in work.counts && x !in defaults)
      && (forall x :: x !in defaults ==> Get(left, x) == Get(work, x))
      && left.keys == KeysWithout(work.keys, defaults)
    decreases |defaults|
  {
    if defaults != [] {
      var d := defaults[0];
      var next := if d in work.counts then Remove(work, d) else work;
      DefaultButtonsLeaves(next, defaults[1..]);
      assert DefaultButtons(work, defaults).0 == DefaultButtons(next, defaults[1..]).0;
      KeysWithoutStep(work.keys, defaults);
      assert next.keys == Erase(work.keys, d) by {
        if d !in work.counts {
          assert d !in work.keys;
          EraseAbsent(work.keys, d);
        }
      }
    } else {
      KeysWithoutNothing(work.keys);
    }
  }

  /** The buttons DefaultButtons makes, one per default. */
  lemma {:induction false} DefaultButtonsShows(work: Tally, defaults: seq<string>)
    requires Valid(work)
    ensures var shown := DefaultButtons(work, defaults).1;
      forall i :: 0 <= i < |defaults| ==> shown[i] == DefaultButtonSpec(work, defaults, i)
    decreases |defaults|
  {
    if defaults != [] {
      var d := defaults[0];
      var next := if d in work.counts then Remove(work, d) else work;
      DefaultButtonsShows(next, defaults[1..]);
      var shown := DefaultButtons(work, defaults).1;
      var rest := DefaultButtons(next, defaults[1..]).1;
      assert shown == [shown[0]] + rest;
      assert defaults[..0] == [];
      forall i | 0 < i < |defaults|
        ensures shown[i] == DefaultButtonSpec(work, defaults, i)
      {
        assert shown[i] == rest[i - 1];
        DefaultSpecShift(work, next, defaults, i);
      }
    }
  }

  /** Past the first default, the spec over the rest and the reduced tally is the spec over all. */
  lemma DefaultSpecShift(work: Tally, next: Tally, defaults: seq<string>, i: nat)
    requires Valid(work) && 0 < i < |defaults|
    requires next == if defaults[0] in work.counts then Remove(work, defaults[0]) else work
    ensures DefaultButtonSpec(next, defaults[1..], i - 1) == DefaultButtonSpec(work, defaults, i)
  {
    var d := defaults[0];
    var e := defaults[i];
    assert defaults[1..][i - 1] == e;
    assert defaults[..i] == [d] + defaults[1..][..i - 1];
    if e != d {
      assert Get(next, e) == Get(work, e);
    }
  }

  lemma {:induction false} KeysWithoutNothing(keys: seq<string>)
    ensures KeysWithout(keys, []) == keys
  {
    if keys != [] {
      KeysWithoutNothing(keys[1..]);
    }
  }

  /** `keys` without any of `removed`, order kept. */
  function KeysWithout(keys: seq<string>, removed: seq<string>): seq<string> {
    if keys == [] then []
    else (if keys[0] in removed then [] else [keys[0]]) + KeysWithout(keys[1..], removed)
  }

  lemma {:induction false} KeysWithoutStep(keys: seq<string>, removed: seq<string>)
    requires removed != []
    ensures KeysWithout(keys, removed) == KeysWithout(Erase(keys, removed[0]), removed[1..])
  {
    if keys != [] {
      KeysWithoutStep(keys[1..], removed);
      if keys[0] != removed[0] {
        assert Erase(keys, removed[0]) == [keys[0]] + Erase(keys[1..], removed[0]);
        assert (keys[0] in removed) == (keys[0] in removed[1..]);
      }
    }
  }

  lemma {:induction false} EraseAbsent(keys: seq<string>, x: string)
    requires x !in keys
    ensures Erase(keys, x) == keys
  {
    if keys != [] {
      EraseAbsent(keys[1..], x);
    }
  }

  /** Each of `keys` as a button labelled with its count in `t`. */
  function Labelled(keys: seq<string>, t: Tally): seq<Button> {
    if keys == [] then []
    else [MakeWithCount(keys[0], Get(t, keys[0]))] + Labelled(keys[1..], t)
  }

  lemma {:induction false} LabelledAt(keys: seq<string>, t: Tally)
    ensures |Labelled(keys, t)| == |keys|
    ensures forall j :: 0 <= j < |keys| ==> Labelled(keys, t)[j] == MakeWithCount(keys[j], Get(t, keys[j]))
  {
    if keys != [] {
      LabelledAt(keys[1..], t);
    }
  }

  /** The extra buttons are the labelled buttons of ExtraKeys, in order. */
  lemma {:induction false} ExtraButtonsSpec(keys: seq<string>, t: Tally, defaults: seq<string>, left: Tally)
    requires forall x :: x !in defaults ==> Get(left, x) == Get(t, x)
    ensures ExtraButtons(KeysWithout(keys, defaults), left) == Labelled(ExtraKeys(keys, t, defaults), t)
  {
    if keys != [] {
      ExtraButtonsSpec(keys[1..], t, defaults, left);
      var k := keys[0];
      var rest := KeysWithout(keys[1..], defaults);
      if k !in defaults {
        assert KeysWithout(keys, defaults) == [k] + rest;
        assert ([k] + rest)[1..] == rest;
        assert Get(left, k) == Get(t, k);
        var extras := ExtraKeys(keys[1..], t, defaults);
        assert ([k] + extras)[1..] == extras;
      } else {
        assert KeysWithout(keys, defaults) == rest;
      }
    }
  }

  /** With no votes, every default is shown bare, in order, and nothing else. */
  lemma NoVotesShowsBareDefaults(defaults: seq<string>)
    ensures var buttons := RenderButtons(Tally([], map[]), defaults);
      |buttons| == |defaults| && forall i :: 0 <= i < |defaults| ==> buttons[i] == Make(defaults[i])
  {
    var t := Tally([], map[]);
    RenderSpec(t, defaults);
    forall i | 0 <= i < |defaults|
      ensures DefaultButtonSpec(t, defaults, i) == Make(defaults[i])
    {
      assert Make(defaults[i]) == MakeWithCount(defaults[i], 0);
    }
  }

  /** What handling one vote produces. */
  datatype Reacted = Reacted(ballot: Ballot, tally: Tally, keyboard: Option<Keyboard>)

  /**
    `handleReaction`: toggle the voter's vote on a message, write the
    record change, and render the message's new keyboard. `defaults` is the
    chat's configured reactions; with no settings stored the code fails at
    index.js:82 after the records were written, so no keyboard is produced.
   */
  function HandleReaction(b: Ballot, user: UserId, token: string, defaults: Option<seq<string>>): (r: Reacted)
    requires OneVotePerUser(b)
    ensures OneVotePerUser(r.ballot)
    ensures Valid(r.tally)
    ensures VoteOf(r.ballot, user) == if VoteOf(b, user) == Some(token) then None else Some(token)
    ensures forall u :: u != user ==> VoteOf(r.ballot, u) == VoteOf(b, u)
    ensures forall e :: Get(r.tally, e) == CountOf(r.ballot, e)
    ensures forall e :: (CountOf(r.ballot, e) ==
      CountOf(b, e) - (if VoteOf(b, user) == Some(e) then 1 else 0)
      + (if VoteOf(r.ballot, user) == Some(e) then 1 else 0))
    ensures var t := CountVotes(b); r.tally.keys == if token in t.counts then t.keys else t.keys + [token]
    ensures r.keyboard.Some? <==> defaults.Some?
    ensures defaults.Some? ==> r.keyboard == Some(RenderKeyboard(r.tally, defaults.value))
  {
    var t := CountVotes(b);
    var prior := VoteOf(b, user);
    assert prior.Some? ==> Get(t, prior.value) >= 1 by {
      if prior.Some? {
        VoteIsCounted(b, user);
      }
    }
    var o := Toggle(t, prior, token);
    var dropped := Drop(b, user);
    var ballot := if o.vote.Some? then dropped + [Vote(user, token)] else dropped;
    Revote(b, user, token);
    RecountAfterVote(b, user, token, o, ballot);
    Reacted(ballot, o.tally, if defaults.Some? then Some(RenderKeyboard(o.tally, defaults.value)) else None)
  }

  /**
    The records a reaction leaves: the user's record is deleted and, unless
    the vote is retracted, a new record for the user is appended.
   */
  lemma WrittenRecords(b: Ballot, user: UserId, token: string, defaults: Option<seq<string>>)
    requires OneVotePerUser(b)
    ensures HandleReaction(b, user, token, defaults).ballot
      == if VoteOf(b, user) == Some(token) then Drop(b, user) else Drop(b, user) + [Vote(user, token)]
  {
    var prior := VoteOf(b, user);
    if prior.Some? {
      VoteIsCounted(b, user);
    }
    var o := Toggle(CountVotes(b), prior, token);
    assert o.vote.Some? <==> prior != Some(token);
  }

  /** The working tally agrees, emoji by emoji, with a recount of the written records. */
  lemma RecountAfterVote(b: Ballot, user: UserId, token: string, o: Outcome, ballot: Ballot)
    requires OneVotePerUser(b)
    requires VoteOf(b, user).Some? ==> Get(CountVotes(b), VoteOf(b, user).value) >= 1
    requires o == Toggle(CountVotes(b), VoteOf(b, user), token)
    requires ballot == if o.vote.Some? then Drop(b, user) + [Vote(user, token)] else Drop(b, user)
    ensures forall e :: Get(o.tally, e) == CountOf(ballot, e)
  {
    forall e
      ensures Get(o.tally, e) == CountOf(ballot, e)
    {
      DropCount(b, user, e);
      if o.vote.Some? {
        CountAppend(Drop(b, user), Vote(user, token), e);
      }
    }
  }
}

=== FILE: router.dfy ===
/**
  Update routing (`handleUpdate`, index.js) as a step function: the bot's
  state and one update in, the new state and the Bot API requests out.
 */
module Router {
  import opened Wrappers
  import opened Seqs
  import opened Telegram
  import opened Tallies
  import opened Ballots
  import opened Keyboards
  import opened Reactions
  import opened Commands

  /** The store's reaction records are kept per message. */
  type MessageKey = (ChatId, MessageId)

  /**
    What persists between updates: the media group of the latest
    attachment (the code's module-level `lastMediaGroupId`), each chat's
    default reactions, and each message's reaction records.
   */
  datatype State = State(
    lastMediaGroupId: Option<string>,
    settings: map<ChatId, seq<string>>,
    ballots: map<MessageKey, Ballot>)

  /** The store never holds two records of one user on one message. */
  predicate Consistent(st: State) {
    forall k :: k in st.ballots ==> OneVotePerUser(st.ballots[k])
  }

  /**
    What the router learns from outside: the bot's own user (`getMe`), and
    the member status `getChatMember` would report for a user in a chat.
   */
  datatype Env = Env(botId: UserId, botUsername: string, memberStatus: (ChatId, UserId) -> string)

  /**
    The Bot API requests the handlers issue, in the order the handlers start
    them. The handlers themselves are not awaited (index.js:113), so a
    request sent after an await, such as the `/edit` refusal after the member
    lookup at index.js:24, can reach the API after a later command's.
   */
  datatype Action =
    | SendNotice(chat: ChatId, notice: Notice, replyTo: Option<MessageId>)
    | ReplaceKeyboard(chat: ChatId, message: MessageId, keyboard: Keyboard)
    | ReplyWithKeyboard(chat: ChatId, message: MessageId, keyboard: Keyboard)
    | CopyWithKeyboard(chat: ChatId, message: MessageId, keyboard: Keyboard)
    | DeleteMessage(chat: ChatId, message: MessageId)
    | AnswerCallbackQuery(queryId: string)

  /** The kinds of update the router tells apart, in its order of priority. */
  datatype Route =
    | CommandRoute(message: Message, commands: seq<Entity>)
    | ReactionReplyRoute(message: Message, target: Message)
    | NewContentRoute(message: Message)
    | ButtonPressRoute(query: CallbackQuery)
    | IgnoredRoute

  /**
    index.js:110: `filter` keeps the bot-command entities, each occurrence, in
    the message's order.
   */
  function CommandEntities(entities: seq<Entity>): (r: seq<Entity>)
    ensures forall e :: e in r <==> e in entities && e.kind == "bot_command"
    ensures IsSubsequence(r, entities)
    ensures forall e :: multiset(r)[e] == if e.kind == "bot_command" then multiset(entities)[e] else 0
  {
    if entities == [] then []
    else
      var e := entities[0];
      var rest := CommandEntities(entities[1..]);
      assert entities == [e] + entities[1..];
      assert multiset(entities) == multiset([e]) + multiset(entities[1..]);
      if e.kind == "bot_command" then
        assert ([e] + rest)[1..] == rest;
        [e] + rest
      else
        assert rest == [] || IsSubsequence(rest, entities[1..]);
        rest
  }

  /** index.js:123: a reply to the bot's own message whose text starts with '+'. */
  predicate IsReactionReply(botId: UserId, m: Message) {
    m.replyTo.Some? && m.replyTo.value.sender == botId && m.text != "" && m.text[0] == '+'
  }

  /** index.js:107-176: the first matching kind wins. */
  function Classify(botId: UserId, u: Update): (r: Route)
    ensures r.CommandRoute? <==> u.payload.MessageUpdate? && CommandEntities(u.payload.message.entities) != []
    ensures r.ReactionReplyRoute? <==>
      u.payload.MessageUpdate? && CommandEntities(u.payload.message.entities) == []
      && IsReactionReply(botId, u.payload.message)
    ensures r.NewContentRoute? <==>
      u.payload.MessageUpdate? && CommandEntities(u.payload.message.entities) == []
      && !IsReactionReply(botId, u.payload.message)
      && u.payload.message.sender != botId && u.payload.message.text == ""
    ensures r.ButtonPressRoute? <==> u.payload.CallbackQueryUpdate?
  {
    match u.payload
    case MessageUpdate(m) =>
      var commands := CommandEntities(m.entities);
      if commands != [] then CommandRoute(m, commands)
      else if IsReactionReply(botId, m) then ReactionReplyRoute(m, m.replyTo.value)
      else if m.sender == botId || m.text != "" then IgnoredRoute
      else NewContentRoute(m)
    case CallbackQueryUpdate(q) => ButtonPressRoute(q)
    case OtherUpdate => IgnoredRoute
  }

  /** The effects of the message's commands, command by command. */
  function CommandEffects(env: Env, m: Message, commands: seq<Entity>): (effects: seq<Effect>)
    ensures forall e :: e in effects ==> e.chat == m.chat.id
    decreases |commands|
  {
    if commands == [] then []
    else
      HandleBotCommand(env.botUsername, commands[0], m, env.memberStatus(m.chat.id, m.sender))
      + CommandEffects(env, m, commands[1..])
  }

  /** The reactions of the last save naming chat `c`, if any. */
  function LastSave(effects: seq<Effect>, c: ChatId): (r: Option<seq<string>>)
    ensures r.Some? ==> SaveDefaults(c, r.value) in effects
  {
    if effects == [] then None
    else
      var e := effects[|effects| - 1];
      if e.SaveDefaults? && e.chat == c then Some(e.reactions)
      else LastSave(effects[..|effects| - 1], c)
  }

  /** The notices among the effects, as requests, in order. */
  function NoticesOf(effects: seq<Effect>): (r: seq<Action>)
    ensures forall a :: a in r ==> a.SendNotice? && Effect.SendNotice(a.chat, a.notice, a.replyTo) in effects
  {
    if effects == [] then []
    else
      var e := effects[|effects| - 1];
      NoticesOf(effects[..|effects| - 1])
      + (if e.SendNotice? then [Action.SendNotice(e.chat, e.notice, e.replyTo)] else [])
  }

  lemma {:induction false} LastSaveAppend(a: seq<Effect>, b: seq<Effect>)
    ensures forall c :: LastSave(a + b, c) == if LastSave(b, c).Some? then LastSave(b, c) else LastSave(a, c)
    decreases |b|
  {
    if b == [] {
      assert a + b == a;
    } else {
      var front := b[..|b| - 1];
      LastSaveAppend(a, front);
      assert (a + b)[..|a + b| - 1] == a + front;
    }
  }

  lemma {:induction false} NoticesAppend(a: seq<Effect>, b: seq<Effect>)
    ensures NoticesOf(a + b) == NoticesOf(a) + NoticesOf(b)
    decreases |b|
  {
    if b == [] {
      assert a + b == a;
    } else {
      var front := b[..|b| - 1];
      NoticesAppend(a, front);
      assert (a + b)[..|a + b| - 1] == a + front;
    }
  }

  lemma LastSaveCons(first: Effect, rest: seq<Effect>)
    ensures forall c :: (LastSave([first] + rest, c)
      == if LastSave(rest, c).Some? then LastSave(rest, c)
         else if first.SaveDefaults? && first.chat == c then Some(first.reactions) else None)
  {
    LastSaveAppend([first], rest);
    forall c {
      LastSaveShort([first], c);
    }
  }

  lemma NoticesCons(first: Effect, rest: seq<Effect>)
    ensures NoticesOf([first] + rest)
      == (if first.SendNotice? then [Action.SendNotice(first.chat, first.notice, first.replyTo)] else []) + NoticesOf(rest)
  {
    NoticesAppend([first], rest);
    assert [first][..0] == [];
  }

  /** Whether `entity` is an `/edit` addressed to this bot that the sender may perform. */
  predicate PermittedEdit(env: Env, m: Message, entity: Entity) {
    var name := ParseCommandName(EntityText(entity, m));
    && AddressedTo(name, env.botUsername) && name.command == "/edit"
    && CanEdit(m.chat.chatType, env.memberStatus(m.chat.id, m.sender))
  }

  /** The parsed argument of the last permitted `/edit` among `commands`, if any. */
  function LastEdit(env: Env, m: Message, commands: seq<Entity>): Option<seq<string>> {
    if commands == [] then None
    else
      var last := commands[|commands| - 1];
      if PermittedEdit(env, m, last) then Some(ParseReactions(ArgumentText(last, m)))
      else LastEdit(env, m, commands[..|commands| - 1])
  }

  /** The last save the commands make for their chat is the last permitted `/edit`. */
  lemma {:induction false} LastEditSaved(env: Env, m: Message, commands: seq<Entity>)
    ensures LastSave(CommandEffects(env, m, commands), m.chat.id) == LastEdit(env, m, commands)
    decreases |commands|
  {
    if commands != [] {
      var front := commands[..|commands| - 1];
      var last := commands[|commands| - 1];
      CommandEffectsLast(env, m, commands);
      var effects := HandleBotCommand(env.botUsername, last, m, env.memberStatus(m.chat.id, m.sender));
      var latest := if PermittedEdit(env, m, last) then Some(ParseReactions(ArgumentText(last, m))) else None;
      CommandSave(env, m, last);
      LastSaveOfSnoc(CommandEffects(env, m, front), effects, m.chat.id, latest);
      LastEditSaved(env, m, front);
    }
  }

  lemma LastSaveOfSnoc(earlier: seq<Effect>, effects: seq<Effect>, c: ChatId, latest: Option<seq<string>>)
    requires LastSave(effects, c) == latest
    ensures LastSave(earlier + effects, c) == if latest.Some? then latest else LastSave(earlier, c)
  {
    LastSaveAppend(earlier, effects);
  }

  /** One command saves for its chat exactly when it is a permitted `/edit`. */
  lemma CommandSave(env: Env, m: Message, entity: Entity)
    ensures var effects := HandleBotCommand(env.botUsername, entity, m, env.memberStatus(m.chat.id, m.sender));
      LastSave(effects, m.chat.id)
        == if PermittedEdit(env, m, entity) then Some(ParseReactions(ArgumentText(entity, m))) else None
  {
    var status := env.memberStatus(m.chat.id, m.sender);
    var effects := HandleBotCommand(env.botUsername, entity, m, status);
    LastSaveShort(effects, m.chat.id);
    if PermittedEdit(env, m, entity) {
      assert effects == [SaveDefaults(m.chat.id, ParseReactions(ArgumentText(entity, m)))];
    } else {
      assert effects == [] || effects[0].SendNotice?;
    }
  }

  lemma LastSaveShort(effects: seq<Effect>, c: ChatId)
    requires |effects| <= 1
    ensures LastSave(effects, c)
      == if effects != [] && effects[0].SaveDefaults? && effects[0].chat == c then Some(effects[0].reactions) else None
  {
    if effects != [] {
      assert effects[..0] == [];
    }
  }

  lemma CommandEffectsLast(env: Env, m: Message, commands: seq<Entity>)
    requires commands != []
    ensures var last := commands[|commands| - 1];
      CommandEffects(env, m, commands)
        == CommandEffects(env, m, commands[..|commands| - 1]) + HandleBotCommand(env.botUsername, last, m, env.memberStatus(m.chat.id, m.sender))
  {
    SplitLast(commands);
    CommandEffectsSnoc(env, m, commands[..|commands| - 1], commands[|commands| - 1]);
  }

  lemma {:induction false} CommandEffectsSnoc(env: Env, m: Message, front: seq<Entity>, last: Entity)
    ensures CommandEffects(env, m, front + [last])
      == CommandEffects(env, m, front) + HandleBotCommand(env.botUsername, last, m, env.memberStatus(m.chat.id, m.sender))
    decreases |front|
  {
    var status := env.memberStatus(m.chat.id, m.sender);
    var all := front + [last];
    if front == [] {
      assert all == [last];
      assert all[1..] == [];
    } else {
      assert all[0] == front[0];
      assert all[1..] == front[1..] + [last];
      CommandEffectsSnoc(env, m, front[1..], last);
      var head := HandleBotCommand(env.botUsername, front[0], m, status);
      var tail := CommandEffects(env, m, front[1..]);
      var lastEffects := HandleBotCommand(env.botUsername, last, m, status);
      assert CommandEffects(env, m, all) == head + (tail + lastEffects);
      assert CommandEffects(env, m, front) == head + tail;
      Associative(head, tail, lastEffects);
    }
  }

  /**
    index.js:112-114: each command entity in turn. Every chat ends with the
    reactions of the last save naming it, or keeps its settings when none
    does; the notices go out in the order of the commands.
   */
  function RunCommands(env: Env, settings: map<ChatId, seq<string>>, m: Message, commands: seq<Entity>)
    : (r: (map<ChatId, seq<string>>, seq<Action>))
    ensures var effects := CommandEffects(env, m, commands);
      forall c :: LastSave(effects, c).Some? ==> c in r.0 && r.0[c] == LastSave(effects, c).value
    ensures var effects := CommandEffects(env, m, commands);
      forall c :: LastSave(effects, c).None? ==> (c in r.0 <==> c in settings) && (c in settings ==> r.0[c] == settings[c])
    ensures r.1 == NoticesOf(CommandEffects(env, m, commands))
    ensures forall c :: c != m.chat.id ==> (c in r.0 <==> c in settings) && (c in settings ==> r.0[c] == settings[c])
    ensures forall a :: a in r.1 ==> a.SendNotice? && a.chat == m.chat.id
    decreases |commands|
  {
    if commands == [] then (settings, [])
    else
      var effects := HandleBotCommand(env.botUsername, commands[0], m, env.memberStatus(m.chat.id, m.sender));
      var applied := ApplyEffects(settings, effects);
      var rest := RunCommands(env, applied.0, m, commands[1..]);
      LastSaveAppend(effects, CommandEffects(env, m, commands[1..]));
      NoticesAppend(effects, CommandEffects(env, m, commands[1..]));
      (rest.0, applied.1 + rest.1)
  }

  /**
    Saves go to the settings, notices become requests: a chat named by a
    save ends with the last save's reactions, any other keeps its settings,
    and every notice is sent, in order.
   */
  function ApplyEffects(settings: map<ChatId, seq<string>>, effects: seq<Effect>): (r: (map<ChatId, seq<string>>, seq<Action>))
    ensures forall c :: LastSave(effects, c).Some? ==> c in r.0 && r.0[c] == LastSave(effects, c).value
    ensures forall c :: LastSave(effects, c).None? ==> (c in r.0 <==> c in settings) && (c in settings ==> r.0[c] == settings[c])
    ensures r.1 == NoticesOf(effects)
    decreases |effects|
  {
    if effects == [] then (settings, [])
    else
      var first := effects[0];
      var rest := ApplyEffects(
        if first.SaveDefaults? then settings[first.chat := first.reactions] else settings,
        effects[1..]);
      assert effects == [first] + effects[1..];
      LastSaveCons(first, effects[1..]);
      NoticesCons(first, effects[1..]);
      match first
      case SaveDefaults(_, _) => rest
      case SendNotice(c, notice, replyTo) => (rest.0, [Action.SendNotice(c, notice, replyTo)] + rest.1)
  }

  /**
    `handleReaction` on message `target` for `user`, as the router calls it:
    the message's records are updated and its keyboard replaced when the
    chat has settings.
   */
  function React(st: State, target: Message, user: UserId, token: string): (r: (State, seq<Action>))
    requires Consistent(st)
    ensures Consistent(r.0)
    ensures r.0.lastMediaGroupId == st.lastMediaGroupId && r.0.settings == st.settings
    ensures forall k :: k != (target.chat.id, target.messageId) ==>
      (k in r.0.ballots <==> k in st.ballots) && (k in st.ballots ==> r.0.ballots[k] == st.ballots[k])
  {
    var key := (target.chat.id, target.messageId);
    var ballot := if key in st.ballots then st.ballots[key] else [];
    var defaults := if target.chat.id in st.settings then Some(st.settings[target.chat.id]) else None;
    assert OneVotePerUser(ballot);
    var reacted := HandleReaction(ballot, user, token, defaults);
    var st' := st.(ballots := st.ballots[key := reacted.ballot]);
    WriteKeepsConsistent(st, key, reacted.ballot);
    match reacted.keyboard
    case Some(kb) => (st', [ReplaceKeyboard(target.chat.id, target.messageId, kb)])
    case None => (st', [])
  }

  /** Writing a ballot with one vote per user keeps the store consistent. */
  lemma WriteKeepsConsistent(st: State, key: MessageKey, ballot: Ballot)
    requires Consistent(st) && OneVotePerUser(ballot)
    ensures Consistent(st.(ballots := st.ballots[key := ballot]))
  {
  }

  /** index.js:136-146: the media group memory after an attachment, or None if it repeats the last group. */
  function NextMediaGroup(last: Option<string>, m: Message): Option<Option<string>> {
    match m.mediaGroupId
    case Some(g) => if last == Some(g) then None else Some(Some(g))
    case None => Some(None)
  }

  /** index.js:155: `if(lastMediaGroupId)`, a media group id being truthy when non-empty. */
  predicate InMediaGroup(group: Option<string>) {
    group.Some? && group.value != ""
  }

  /** index.js:148-153: the initial keyboard, a bare button per default reaction of the chat. */
  function InitialKeyboard(settings: map<ChatId, seq<string>>, chat: ChatId): Keyboard {
    var defaults := if chat in settings then settings[chat] else [];
    MakeInlineKeyboard(seq(|defaults|, i requires 0 <= i < |defaults| => Make(defaults[i])), MaxColumns)
  }

  /**
    index.js:136-163: an attachment gets the initial keyboard, as a reply when
    it is part of a media group and otherwise on a copy that replaces it;
    a further attachment of the last media group gets nothing.
   */
  function NewContent(st: State, m: Message): (State, seq<Action>) {
    match NextMediaGroup(st.lastMediaGroupId, m)
    case None => (st, [])
    case Some(group) =>
      var kb := InitialKeyboard(st.settings, m.chat.id);
      var actions :=
        if InMediaGroup(group) then [ReplyWithKeyboard(m.chat.id, m.messageId, kb)]
        else [CopyWithKeyboard(m.chat.id, m.messageId, kb), DeleteMessage(m.chat.id, m.messageId)];
      (st.(lastMediaGroupId := group), actions)
  }

  /** `handleUpdate` for one update. */
  function Step(env: Env, st: State, u: Update): (r: (State, seq<Action>))
    requires Consistent(st)
    ensures Consistent(r.0)
  {
    match Classify(env.botId, u)
    case CommandRoute(m, commands) =>
      var ran := RunCommands(env, st.settings, m, commands);
      (st.(settings := ran.0), ran.1)
    case ReactionReplyRoute(m, target) =>
      var reacted := React(st, target, m.sender, m.text[1..]);
      (reacted.0, [DeleteMessage(m.chat.id, m.messageId)] + reacted.1)
    case NewContentRoute(m) => NewContent(st, m)
    case ButtonPressRoute(q) =>
      var reacted := React(st, q.message, q.sender, q.data);
      (reacted.0, [AnswerCallbackQuery(q.id)] + reacted.1)
    case IgnoredRoute => (st, [])
  }

  // Properties of the routing step.

  /** The message key and records a reaction on `target` works on. */
  function KeyOf(target: Message): MessageKey {
    (target.chat.id, target.messageId)
  }

  function BallotAt(st: State, key: MessageKey): Ballot {
    if key in st.ballots then st.ballots[key] else []
  }

  /**
    A reaction on `target`: the voter's vote toggles, nobody else's record
    changes, no other message's records change, and the replaced keyboard
    (present exactly when the chat has settings) renders a tally that agrees
    with a recount of the written records. Its emoji keep the order of the
    recount before the vote, with a new emoji last.
   */
  lemma ReactToggles(st: State, target: Message, user: UserId, token: string)
    requires Consistent(st)
    ensures var r := React(st, target, user, token);
      var key := KeyOf(target);
      var before := BallotAt(st, key);
      var after := BallotAt(r.0, key);
      && VoteOf(after, user) == (if VoteOf(before, user) == Some(token) then None else Some(token))
      && (forall v :: v != user ==> VoteOf(after, v) == VoteOf(before, v))
      && (|r.1| == 1 <==> target.chat.id in st.settings)
      && |r.1| <= 1
      && (target.chat.id in st.settings ==>
            exists t :: Valid(t) && (forall e :: Get(t, e) == CountOf(after, e))
              && t.keys == (var t0 := CountVotes(before); if token in t0.counts then t0.keys else t0.keys + [token])
              && r.1[0] == ReplaceKeyboard(target.chat.id, target.messageId, RenderKeyboard(t, st.settings[target.chat.id])))
  {
    var key := KeyOf(target);
    var defaults := if target.chat.id in st.settings then Some(st.settings[target.chat.id]) else None;
    var reacted := HandleReaction(BallotAt(st, key), user, token, defaults);
    var r := React(st, target, user, token);
    assert BallotAt(r.0, key) == reacted.ballot;
    if target.chat.id in st.settings {
      assert r.1[0] == ReplaceKeyboard(target.chat.id, target.messageId, RenderKeyboard(reacted.tally, defaults.value));
    }
  }

  /**
    index.js:107-116: an update whose message has a bot command is used up by
    the commands. Records and the media group memory are untouched; the
    chat's defaults become the argument of its last permitted `/edit`, or
    stay when there is none; other chats' settings stay; and the requests
    are the commands' notices to the chat, in command order.
   */
  lemma CommandsConsumeUpdate(env: Env, st: State, u: Update)
    requires Consistent(st)
    requires u.payload.MessageUpdate? && CommandEntities(u.payload.message.entities) != []
    ensures var r := Step(env, st, u);
      var m := u.payload.message;
      var chat := m.chat.id;
      var commands := CommandEntities(m.entities);
      var edit := LastEdit(env, m, commands);
      && r.0.ballots == st.ballots
      && r.0.lastMediaGroupId == st.lastMediaGroupId
      && r.1 == NoticesOf(CommandEffects(env, m, commands))
      && (forall a :: a in r.1 ==> a.SendNotice? && a.chat == chat)
      && (edit.Some? ==> chat in r.0.settings && r.0.settings[chat] == edit.value)
      && (edit.None? ==>
            (chat in r.0.settings <==> chat in st.settings) && (chat in st.settings ==> r.0.settings[chat] == st.settings[chat]))
      && (forall c :: c != chat ==>
            ((c in r.0.settings <==> c in st.settings) && (c in st.settings ==> r.0.settings[c] == st.settings[c])))
  {
    var m := u.payload.message;
    LastEditSaved(env, m, CommandEntities(m.entities));
  }

  /**
    index.js:120-127: a '+' reply to the bot's message, with no command in it,
    votes the text after the '+' (untrimmed) on the replied-to message for
    the reply's sender, and the reply is deleted first.
   */
  lemma ReactionReplyVotes(env: Env, st: State, u: Update)
    requires Consistent(st)
    requires u.payload.MessageUpdate? && CommandEntities(u.payload.message.entities) == []
    requires IsReactionReply(env.botId, u.payload.message)
    ensures var m := u.payload.message;
      var target := m.replyTo.value;
      var r := Step(env, st, u);
      && r.0 == React(st, target, m.sender, m.text[1..]).0
      && r.1 == [DeleteMessage(m.chat.id, m.messageId)] + React(st, target, m.sender, m.text[1..]).1
  {
  }

  /** index.js:167-176: a button press is acknowledged, then votes the button's token. */
  lemma ButtonPressVotes(env: Env, st: State, u: Update)
    requires Consistent(st)
    requires u.payload.CallbackQueryUpdate?
    ensures var q := u.payload.query;
      var r := Step(env, st, u);
      && r.0 == React(st, q.message, q.sender, q.data).0
      && r.1 == [AnswerCallbackQuery(q.id)] + React(st, q.message, q.sender, q.data).1
  {
  }

  /**
    index.js:133-134: with no command and no '+' reply, a message from the
    bot itself or a message with text changes nothing and sends nothing.
   */
  lemma OwnAndTextMessagesIgnored(env: Env, st: State, u: Update)
    requires Consistent(st)
    requires u.payload.MessageUpdate? && CommandEntities(u.payload.message.entities) == []
    requires !IsReactionReply(env.botId, u.payload.message)
    requires u.payload.message.sender == env.botId || u.payload.message.text != ""
    ensures Step(env, st, u) == (st, [])
  {
  }

  /** Updates that are neither messages nor button presses change nothing. */
  lemma OtherUpdatesIgnored(env: Env, st: State, u: Update)
    requires Consistent(st)
    requires u.payload.OtherUpdate?
    ensures Step(env, st, u) == (st, [])
  {
  }

  /**
    index.js:136-146: an attachment of the media group seen last gets nothing
    and leaves the state alone; any other attachment records its group (or
    forgets the last one when it has none) and gets exactly one keyboard.
   */
  lemma MediaGroupDeduplication(env: Env, st: State, u: Update)
    requires Consistent(st)
    requires Classify(env.botId, u).NewContentRoute?
    ensures var m := u.payload.message;
      var r := Step(env, st, u);
      && (m.mediaGroupId.Some? && st.lastMediaGroupId == m.mediaGroupId ==> r == (st, []))
      && (m.mediaGroupId.None? || st.lastMediaGroupId != m.mediaGroupId ==>
            && r.0 == st.(lastMediaGroupId := m.mediaGroupId)
            && (InMediaGroup(m.mediaGroupId) ==>
                  r.1 == [ReplyWithKeyboard(m.chat.id, m.messageId, InitialKeyboard(st.settings, m.chat.id))])
            && (!InMediaGroup(m.mediaGroupId) ==>
                  r.1 == [CopyWithKeyboard(m.chat.id, m.messageId, InitialKeyboard(st.settings, m.chat.id)),
                          DeleteMessage(m.chat.id, m.messageId)]))
  {
  }

  /**
    The initial keyboard shows every default reaction of the chat bare, in
    order, in rows of at most MaxColumns: it is the keyboard rendered from
    an empty tally.
   */
  lemma InitialKeyboardShowsDefaults(settings: map<ChatId, seq<string>>, chat: ChatId)
    ensures var defaults := if chat in settings then settings[chat] else [];
      var kb := InitialKeyboard(settings, chat);
      && |Flatten(kb)| == |defaults|
      && (forall i :: 0 <= i < |defaults| ==> Flatten(kb)[i] == Make(defaults[i]))
      && kb == RenderKeyboard(Tally([], map[]), defaults)
  {
    var defaults := if chat in settings then settings[chat] else [];
    var bare := seq(|defaults|, i requires 0 <= i < |defaults| => Make(defaults[i]));
    assert Flatten(InitialKeyboard(settings, chat)) == bare;
    BareDefaults(defaults);
  }

  lemma BareDefaults(defaults: seq<string>)
    ensures RenderButtons(Tally([], map[]), defaults)
      == seq(|defaults|, i requires 0 <= i < |defaults| => Make(defaults[i]))
  {
    NoVotesShowsBareDefaults(defaults);
  }
}

=== FILE: scenarios.dfy ===
/**
  Worked examples of the bot's behaviour, each stated over the model's
  operations.
 */
module Scenarios {
  import opened Wrappers
  import opened Seqs
  import opened Telegram
  import opened Tallies
  import opened Ballots
  import opened Keyboards
  import opened Reactions
  import opened Commands
  import opened Router
  import opened Offsets

  /** A chat with defaults 👍 and 👎 and no votes shows one row: 👍 and 👎, without counts. */
  lemma BareDefaultsRow()
    ensures RenderKeyboard(Tally([], map[]), ["👍", "👎"]) == [[Make("👍"), Make("👎")]]
  {
    var defaults := ["👍", "👎"];
    NoVotesShowsBareDefaults(defaults);
    var buttons := RenderButtons(Tally([], map[]), defaults);
    assert buttons == [Make("👍"), Make("👎")];
  }

  // A votes `up`, B votes `up`, A switches to `down`: the message ends with
  // one `up` and one `down`. Each lemma is one step; each step's records are
  // the next step's input.

  /** A's first vote on a message writes one record and shows one `up`. */
  lemma FirstVote(a: UserId, up: string, defaults: Option<seq<string>>)
    ensures var r := HandleReaction([], a, up, defaults);
      r.ballot == [Vote(a, up)] && Get(r.tally, up) == 1
  {
    assert VoteOf([], a) == None;
    assert Drop([], a) == [];
    assert [] + [Vote(a, up)] == [Vote(a, up)];
    assert CountOf([], up) == 0;
    CountAppend([], Vote(a, up), up);
    WrittenRecords([], a, up, defaults);
  }

  /** B's vote for the same emoji appends a record after A's: two `up`. */
  lemma SecondVote(a: UserId, b: UserId, up: string, defaults: Option<seq<string>>)
    requires a != b
    ensures var r := HandleReaction([Vote(a, up)], b, up, defaults);
      r.ballot == [Vote(a, up), Vote(b, up)] && Get(r.tally, up) == 2
  {
    var ballot := [Vote(a, up)];
    assert ballot[..0] == [];
    assert VoteOf(ballot, b) == None;
    assert Drop(ballot, b) == ballot;
    var after := [Vote(a, up), Vote(b, up)];
    assert ballot + [Vote(b, up)] == after;
    assert CountOf([], up) == 0;
    CountAppend([], Vote(a, up), up);
    assert [] + [Vote(a, up)] == ballot;
    CountAppend(ballot, Vote(b, up), up);
    WrittenRecords(ballot, b, up, defaults);
  }

  /** A switching to `down` replaces A's record by a new, latest one: one `up`, one `down`. */
  lemma SwitchVote(a: UserId, b: UserId, up: string, down: string, defaults: Option<seq<string>>)
    requires a != b && up != down
    ensures var r := HandleReaction([Vote(a, up), Vote(b, up)], a, down, defaults);
      && r.ballot == [Vote(b, up), Vote(a, down)]
      && Get(r.tally, up) == 1 && Get(r.tally, down) == 1
      && VoteOf(r.ballot, a) == Some(down) && VoteOf(r.ballot, b) == Some(up)
  {
    var ballot := [Vote(a, up), Vote(b, up)];
    SwitchDrops(a, b, up);
    SwitchCounts(a, b, up, down);
    assert Some(up) != Some(down);
    assert [Vote(b, up)] + [Vote(a, down)] == [Vote(b, up), Vote(a, down)];
    WrittenRecords(ballot, a, down, defaults);
  }

  /** Before the switch: A votes `up`; deleting A's record leaves B's. */
  lemma SwitchDrops(a: UserId, b: UserId, up: string)
    requires a != b
    ensures VoteOf([Vote(a, up), Vote(b, up)], a) == Some(up)
    ensures Drop([Vote(a, up), Vote(b, up)], a) == [Vote(b, up)]
  {
    var ballot := [Vote(a, up), Vote(b, up)];
    assert ballot[..1] == [Vote(a, up)];
    assert [Vote(a, up)][..0] == [];
    assert Drop([Vote(a, up)], a) == [];
  }

  /** After the switch: one `up` by B, one `down` by A. */
  lemma SwitchCounts(a: UserId, b: UserId, up: string, down: string)
    requires a != b && up != down
    ensures var after := [Vote(b, up), Vote(a, down)];
      && CountOf(after, up) == 1 && CountOf(after, down) == 1
      && VoteOf(after, a) == Some(down) && VoteOf(after, b) == Some(up)
  {
    var after := [Vote(b, up), Vote(a, down)];
    assert after[..1] == [Vote(b, up)];
    assert VoteOf(after, b) == Some(up);
    SwitchTally(b, a, up, down);
  }

  lemma SwitchTally(b: UserId, a: UserId, up: string, down: string)
    requires up != down
    ensures var after := [Vote(b, up), Vote(a, down)];
      CountOf(after, up) == 1 && CountOf(after, down) == 1
  {
    var after := [Vote(b, up), Vote(a, down)];
    assert CountOf([], up) == 0 && CountOf([], down) == 0;
    CountAppend([], Vote(b, up), up);
    CountAppend([], Vote(b, up), down);
    assert [] + [Vote(b, up)] == [Vote(b, up)];
    CountAppend([Vote(b, up)], Vote(a, down), up);
    CountAppend([Vote(b, up)], Vote(a, down), down);
    assert [Vote(b, up)] + [Vote(a, down)] == after;
  }

  /** Voting the same emoji twice on a message clears the vote and restores every count. */
  lemma VoteTwiceOnMessage(b: Ballot, user: UserId, token: string, defaults: Option<seq<string>>)
    requires OneVotePerUser(b) && VoteOf(b, user).None?
    ensures var first := HandleReaction(b, user, token, defaults);
      var second := HandleReaction(first.ballot, user, token, defaults);
      && VoteOf(second.ballot, user).None?
      && forall e :: CountOf(second.ballot, e) == CountOf(b, e)
  {
    var first := HandleReaction(b, user, token, defaults);
    var second := HandleReaction(first.ballot, user, token, defaults);
    CountsRestored(b, first.ballot, second.ballot, user);
  }

  /** A vote cast and then retracted leaves every count as it was. */
  lemma CountsRestored(b: Ballot, cast: Ballot, retracted: Ballot, user: UserId)
    requires VoteOf(b, user).None? && VoteOf(cast, user).Some? && VoteOf(retracted, user).None?
    requires forall e :: (CountOf(cast, e) ==
      CountOf(b, e) - (if VoteOf(b, user) == Some(e) then 1 else 0) + (if VoteOf(cast, user) == Some(e) then 1 else 0))
    requires forall e :: (CountOf(retracted, e) ==
      CountOf(cast, e) - (if VoteOf(cast, user) == Some(e) then 1 else 0) + (if VoteOf(retracted, user) == Some(e) then 1 else 0))
    ensures forall e :: CountOf(retracted, e) == CountOf(b, e)
  {
  }

  /** `/edit` followed by `argument`, sent in group chat 10 by user 5 as message 1. */
  function EditMessage(argument: string): Message {
    Message(1, Chat(10, "group"), 5, "/edit" + argument, [Entity("bot_command", 0, 5)], None, None)
  }

  function EditUpdate(argument: string): Update {
    Update(100, MessageUpdate(EditMessage(argument)))
  }

  /** The bot `@reactions_bot`, seeing every sender with chat-member status `status`. */
  function WithStatus(status: string): Env {
    Env(42, "reactions_bot", (c: ChatId, u: UserId) => status)
  }

  /** `/edit x y x` stores x, y: the repeat collapses into its first appearance (`/edit 🔥 💯 🔥` gives 🔥, 💯). */
  lemma RepeatCollapses(x: string, y: string)
    requires IsWord(x) && IsWord(y) && x != y
    ensures ParseReactions(" " + x + " " + y + " " + x) == [x, y]
  {
    RepeatWords(x, y);
    RepeatKept(x, y);
  }

  /** Of the words x, y, x, the first appearances x, y are kept. */
  lemma RepeatKept(x: string, y: string)
    requires IsWord(x) && IsWord(y) && x != y
    ensures DropEmpty(Dedup([x, y, x])) == [x, y]
  {
    RepeatDedups(x, y);
    DropEmptyNoop([x, y]);
  }

  /** `/edit x y x` keeps the words of its argument that survive de-duplication. */
  lemma RepeatWords(x: string, y: string)
    requires IsWord(x) && IsWord(y)
    ensures ParseReactions(" " + x + " " + y + " " + x) == DropEmpty(Dedup([x, y, x]))
  {
    RepeatSplits(x, y);
    ParseReactionsOf(" " + x + " " + y + " " + x, [x, y, x]);
  }

  /** The argument of `/edit x y x` splits into three words, the repeat included. */
  lemma RepeatSplits(x: string, y: string)
    requires IsWord(x) && IsWord(y)
    ensures SplitWords(Trim(" " + x + " " + y + " " + x)) == [x, y, x]
  {
    var words := [x, y, x];
    RepeatText(x, y);
    TrimPadded(Join(words, " "));
    assert AllWords(words);
    SplitJoin(words);
  }

  /** The argument of `/edit x y x` is a space before the three words joined by spaces. */
  lemma RepeatText(x: string, y: string)
    requires x != []
    ensures var text := Join([x, y, x], " ");
      && " " + x + " " + y + " " + x == " " + text
      && text[0] == x[0] && text[|text| - 1] == x[|x| - 1]
  {
    var words := [x, y, x];
    var text := Join(words, " ");
    assert Join(words[2..], " ") == x;
    assert Join(words[1..], " ") == y + " " + x;
    assert text == x + " " + (y + " " + x);
  }

  /** De-duplicating x, y, x keeps x, y. */
  lemma RepeatDedups(x: string, y: string)
    requires x != y
    ensures Dedup([x, y, x]) == [x, y]
  {
    var words := [x, y, x];
    assert words[..2] == [x, y];
    assert [x, y][..1] == [x];
    assert [x][..0] == [];
    assert Dedup([x]) == [x];
    assert Dedup([x, y]) == [x, y];
  }

  /** The entity of an `/edit` message covers `/edit`, which names no bot; the rest is the argument. */
  lemma EditCommandParts(argument: string)
    ensures var m := EditMessage(argument);
      && ParseCommandName(EntityText(m.entities[0], m)) == CommandName("/edit", None)
      && ArgumentText(m.entities[0], m) == argument
  {
    var m := EditMessage(argument);
    assert m.text[..5] == "/edit" && m.text[5..] == argument;
    assert '@' !in "/edit";
    var parts := SplitOn("/edit", '@');
    assert |parts| == 1;
  }

  /** An administrator's `/edit x y x` in a group stores x, y as the chat's defaults and sends nothing. */
  lemma AdminEditSaves(st: State, x: string, y: string)
    requires Consistent(st) && IsWord(x) && IsWord(y) && x != y
    ensures Step(WithStatus("administrator"), st, EditUpdate(" " + x + " " + y + " " + x))
      == (st.(settings := st.settings[10 := [x, y]]), [])
  {
    var argument := " " + x + " " + y + " " + x;
    OneCommandStep(WithStatus("administrator"), st, EditUpdate(argument));
    EditEffects(argument, "administrator");
    RepeatCollapses(x, y);
    ApplyOne(st.settings, SaveDefaults(10, [x, y]));
  }

  /** A plain member's `/edit` in a group changes nothing and is answered with the admin-only notice. */
  lemma MemberEditRefused(st: State, argument: string)
    requires Consistent(st)
    ensures Step(WithStatus("member"), st, EditUpdate(argument))
      == (st, [Router.SendNotice(10, PermissionAdmin, Some(1))])
  {
    OneCommandStep(WithStatus("member"), st, EditUpdate(argument));
    EditEffects(argument, "member");
    ApplyOne(st.settings, Commands.SendNotice(10, PermissionAdmin, Some(1)));
  }

  /** In the group chat, the `/edit` message saves its parsed argument when `status` may edit, and is refused otherwise. */
  lemma EditEffects(argument: string, status: string)
    ensures var m := EditMessage(argument);
      HandleBotCommand("reactions_bot", m.entities[0], m, status)
        == if CanEdit("group", status) then [SaveDefaults(10, ParseReactions(argument))]
           else [Commands.SendNotice(10, PermissionAdmin, Some(1))]
  {
    var m := EditMessage(argument);
    EditCommandParts(argument);
    EditPermission("reactions_bot", m.entities[0], m, status);
  }

  /** Applying a single effect. */
  lemma ApplyOne(settings: map<ChatId, seq<string>>, e: Effect)
    ensures ApplyEffects(settings, [e])
      == if e.SaveDefaults? then (settings[e.chat := e.reactions], [])
         else (settings, [Router.SendNotice(e.chat, e.notice, e.replyTo)])
  {
    var next := if e.SaveDefaults? then settings[e.chat := e.reactions] else settings;
    assert [e][1..] == [];
    assert ApplyEffects(next, []) == (next, []);
    if e.SendNotice? {
      var a := Router.SendNotice(e.chat, e.notice, e.replyTo);
      assert [a] + [] == [a];
    }
  }

  /**
    A message whose only entity is a command is handled by that one command:
    the step is the command's effects applied to the settings.
   */
  lemma OneCommandStep(env: Env, st: State, u: Update)
    requires Consistent(st) && u.payload.MessageUpdate?
    requires |u.payload.message.entities| == 1 && u.payload.message.entities[0].kind == "bot_command"
    ensures var m := u.payload.message;
      var applied := ApplyEffects(st.settings,
        HandleBotCommand(env.botUsername, m.entities[0], m, env.memberStatus(m.chat.id, m.sender)));
      Step(env, st, u) == (st.(settings := applied.0), applied.1)
  {
    var m := u.payload.message;
    assert CommandEntities(m.entities[1..]) == [];
    assert CommandEntities(m.entities) == m.entities;
    var applied := ApplyEffects(st.settings,
      HandleBotCommand(env.botUsername, m.entities[0], m, env.memberStatus(m.chat.id, m.sender)));
    assert RunCommands(env, applied.0, m, []) == (applied.0, []);
    assert m.entities[1..] == [];
    assert applied.1 + [] == applied.1;
  }

  /** `/edit@other` is meant for another bot: nothing changes and nothing is sent, whoever sends it. */
  lemma OtherBotIgnored(st: State, status: string, other: string, argument: string)
    requires Consistent(st) && '@' !in other && other != "" && other != "reactions_bot"
    ensures var token := "/edit" + "@" + other;
      Step(WithStatus(status), st,
           Update(100, MessageUpdate(Message(1, Chat(10, "group"), 5, token + argument,
                                             [Entity("bot_command", 0, |token|)], None, None))))
      == (st, [])
  {
    var env := WithStatus(status);
    var token := "/edit" + "@" + other;
    var m := Message(1, Chat(10, "group"), 5, token + argument, [Entity("bot_command", 0, |token|)], None, None);
    OneCommandStep(env, st, Update(100, MessageUpdate(m)));
    OtherBotCommand(m, status, other, argument);
    assert ApplyEffects(st.settings, []) == (st.settings, []);
  }

  /** The command handler produces nothing for a command addressed to `@other`. */
  lemma OtherBotCommand(m: Message, status: string, other: string, argument: string)
    requires '@' !in other && other != "" && other != "reactions_bot"
    requires m.text == "/edit" + "@" + other + argument && m.entities == [Entity("bot_command", 0, |"/edit" + "@" + other|)]
    ensures HandleBotCommand("reactions_bot", m.entities[0], m, status) == []
  {
    var token := "/edit" + "@" + other;
    assert EntityText(m.entities[0], m) == token by {
      assert m.text[..|token|] == token;
    }
    assert '@' !in "/edit";
    ParseCommandMention("/edit", other);
  }

  /** An attachment of media group `group` with no command, text or '+' reply. */
  predicate GroupAttachment(env: Env, u: Update, group: string) {
    && Classify(env.botId, u).NewContentRoute?
    && u.payload.message.mediaGroupId == Some(group)
  }

  /** Three attachments of one media group in a row: only the first gets a keyboard. */
  lemma MediaGroupBurst(env: Env, st: State, u1: Update, u2: Update, u3: Update, group: string)
    requires Consistent(st) && st.lastMediaGroupId != Some(group) && group != ""
    requires GroupAttachment(env, u1, group) && GroupAttachment(env, u2, group) && GroupAttachment(env, u3, group)
    ensures var s1 := Step(env, st, u1);
      var s2 := Step(env, s1.0, u2);
      var s3 := Step(env, s2.0, u3);
      && |s1.1| == 1 && s1.1[0].ReplyWithKeyboard?
      && s2.1 == [] && s3.1 == []
  {
    MediaGroupDeduplication(env, st, u1);
    var s1 := Step(env, st, u1);
    MediaGroupDeduplication(env, s1.0, u2);
    MediaGroupDeduplication(env, s1.0, u3);
  }

  /** The offset after updates 5, 9 and 7 is 10, whatever their order. */
  lemma OffsetExample(p: Payload)
    ensures CalculateOffset([Update(5, p), Update(9, p), Update(7, p)]) == Some(10)
    ensures CalculateOffset([Update(9, p), Update(7, p), Update(5, p)]) == Some(10)
  {
    var batch := [Update(5, p), Update(9, p), Update(7, p)];
    assert batch[..2] == [Update(5, p), Update(9, p)];
    assert batch[..2][..1] == [Update(5, p)];
    OffsetIgnoresOrder(batch, [Update(9, p), Update(7, p), Update(5, p)]);
  }
}

=== FILE: seqs.dfy ===
/** Small facts about sequences shared by the other modules. */
module Seqs {

  /** No element occurs twice. */
  predicate Distinct<T(==)>(s: seq<T>) {
    forall i, j :: 0 <= i < j < |s| ==> s[i] != s[j]
  }

  /** `s` with every occurrence of `x` removed, order kept. */
  function Erase<T(==,!new)>(s: seq<T>, x: T): (r: seq<T>)
    ensures x !in r
    ensures forall y :: y != x ==> (y in r <==> y in s)
    ensures Distinct(s) ==> Distinct(r)
    ensures |r| <= |s|
  {
    if s == [] then []
    else if s[0] == x then Erase(s[1..], x)
    else
      var rest := Erase(s[1..], x);
      assert Distinct(s) ==> s[0] !in s[1..];
      [s[0]] + rest
  }

  lemma Associative<T>(a: seq<T>, b: seq<T>, c: seq<T>)
    ensures a + (b + c) == (a + b) + c
  {
  }

  /** A non-empty sequence is its front followed by its last element. */
  lemma SplitLast<T>(s: seq<T>)
    requires s != []
    ensures s == s[..|s| - 1] + [s[|s| - 1]]
  {
  }

  /** The position of the first occurrence of `x` in `s` (`indexOf`). */
  function FirstIndex<T(==)>(s: seq<T>, x: T): (i: nat)
    requires x in s
    ensures i < |s| && s[i] == x && x !in s[..i]
  {
    if s[0] == x then 0
    else
      var i := 1 + FirstIndex(s[1..], x);
      assert s[..i] == [s[0]] + s[1..][..i - 1];
      i
  }

  /** `r` is `s` with some elements left out and the rest in their order. */
  predicate IsSubsequence<T(==)>(r: seq<T>, s: seq<T>)
    decreases |s|
  {
    if r == [] then true
    else if s == [] then false
    else (r[0] == s[0] && IsSubsequence(r[1..], s[1..])) || IsSubsequence(r, s[1..])
  }

  /** A subsequence draws its elements from the sequence. */
  lemma {:induction false} SubsequenceMembers<T>(r: seq<T>, s: seq<T>)
    requires IsSubsequence(r, s)
    ensures forall x :: x in r ==> x in s
    decreases |s|
  {
    if r != [] {
      if r[0] == s[0] && IsSubsequence(r[1..], s[1..]) {
        SubsequenceMembers(r[1..], s[1..]);
        assert r == [r[0]] + r[1..];
      } else {
        SubsequenceMembers(r, s[1..]);
      }
    }
  }

  /** A subsequence of a list without repeats lists its elements in the list's order. */
  lemma {:induction false} SubsequenceKeepsOrder<T>(r: seq<T>, s: seq<T>)
    requires IsSubsequence(r, s) && Distinct(s)
    ensures forall x :: x in r ==> x in s
    ensures forall i, j :: 0 <= i < j < |r| ==> FirstIndex(s, r[i]) < FirstIndex(s, r[j])
    decreases |s|
  {
    SubsequenceMembers(r, s);
    if r != [] {
      var tail := s[1..];
      assert Distinct(tail);
      assert forall x :: x in tail ==> x != s[0] && FirstIndex(s, x) == 1 + FirstIndex(tail, x);
      if r[0] == s[0] && IsSubsequence(r[1..], tail) {
        SubsequenceKeepsOrder(r[1..], tail);
        forall i, j | 0 <= i < j < |r|
          ensures FirstIndex(s, r[i]) < FirstIndex(s, r[j])
        {
          assert r[j] == r[1..][j - 1];
          if i > 0 {
            assert r[i] == r[1..][i - 1];
          }
        }
      } else {
        SubsequenceKeepsOrder(r, tail);
      }
    }
  }
}

=== FILE: tallies.dfy ===
/**
  A message's vote tally as index.js holds it in a JavaScript `Map`: emoji
  text to count. A `Map` iterates its entries in insertion order, and the
  rendered keyboard follows that order, so the model keeps the key order
  beside the counts.
 */
module Tallies {
  import opened Seqs

  /** `keys` is the `Map`'s iteration order; `counts` its entries. */
  datatype Tally = Tally(keys: seq<string>, counts: map<string, int>)

  /** Counts are never negative; every entry is listed once in `keys`, and `keys` lists nothing else. */
  predicate Valid(t: Tally) {
    && (forall e :: e in t.counts ==> t.counts[e] >= 0)
    && Distinct(t.keys)
    && (forall e :: e in t.counts ==> e in t.keys)
    && (forall e :: e in t.keys ==> e in t.counts)
  }

  /** The count of `e`, an absent entry reading as 0. */
  function Get(t: Tally, e: string): int {
    if e in t.counts then t.counts[e] else 0
  }

  /** `Map.prototype.set`: an existing key keeps its place, a new key goes last. */
  function Put(t: Tally, e: string, v: int): (r: Tally)
    requires Valid(t) && v >= 0
    ensures Valid(r)
    ensures e in r.counts && Get(r, e) == v
    ensures forall x :: x != e ==> Get(r, x) == Get(t, x) && (x in r.counts <==> x in t.counts)
    ensures r.keys == if e in t.counts then t.keys else t.keys + [e]
  {
    if e in t.counts then Tally(t.keys, t.counts[e := v])
    else Tally(t.keys + [e], t.counts[e := v])
  }

  /** `Map.prototype.delete`: the other entries keep their order. */
  function Remove(t: Tally, e: string): (r: Tally)
    requires Valid(t)
    ensures Valid(r)
    ensures e !in r.counts
    ensures forall x :: x != e ==> Get(r, x) == Get(t, x) && (x in r.counts <==> x in t.counts)
    ensures r.keys == Erase(t.keys, e)
  {
    Tally(Erase(t.keys, e), t.counts - {e})
  }

  /** The sum of the counts of `keys`. */
  function Sum(keys: seq<string>, counts: map<string, int>): int
    requires forall k :: k in keys ==> k in counts
  {
    if keys == [] then 0 else counts[keys[0]] + Sum(keys[1..], counts)
  }

  /** The number of votes the tally records. */
  function Total(t: Tally): int
    requires Valid(t)
  {
    Sum(t.keys, t.counts)
  }

  /** Setting one entry changes the total by the entry's change. */
  lemma TotalPut(t: Tally, e: string, v: int)
    requires Valid(t) && v >= 0
    ensures Total(Put(t, e, v)) == Total(t) - Get(t, e) + v
  {
    if e in t.counts {
      SumPoint(t.keys, t.counts, e, v);
    } else {
      SumFrame(t.keys, t.counts, e, v);
      SumAppend(t.keys, t.counts[e := v], e);
    }
  }

  lemma {:induction false} SumFrame(keys: seq<string>, counts: map<string, int>, e: string, v: int)
    requires forall k :: k in keys ==> k in counts
    requires e !in keys
    ensures Sum(keys, counts[e := v]) == Sum(keys, counts)
  {
    if keys != [] {
      SumFrame(keys[1..], counts, e, v);
    }
  }

  lemma {:induction false} SumAppend(keys: seq<string>, counts: map<string, int>, e: string)
    requires forall k :: k in keys ==> k in counts
    requires e in counts
    ensures Sum(keys + [e], counts) == Sum(keys, counts) + counts[e]
  {
    if keys == [] {
      assert keys + [e] == [e];
    } else {
      assert (keys + [e])[1..] == keys[1..] + [e];
      SumAppend(keys[1..], counts, e);
    }
  }

  lemma {:induction false} SumPoint(keys: seq<string>, counts: map<string, int>, e: string, v: int)
    requires forall k :: k in keys ==> k in counts
    requires Distinct(keys) && e in keys
    ensures Sum(keys, counts[e := v]) == Sum(keys, counts) - counts[e] + v
  {
    if keys[0] == e {
      assert e !in keys[1..] by {
        forall i | 0 <= i < |keys[1..]|
          ensures keys[1..][i] != e
        {
          assert keys[1..][i] == keys[i + 1];
        }
      }
      SumFrame(keys[1..], counts, e, v);
    } else {
      SumPoint(keys[1..], counts, e, v);
    }
  }
}

=== FILE: telegram.dfy ===
/**
  The parts of the Telegram Bot API objects that the bot reads. A field the API
  may omit is either an Option or, where the code only tests it for
  truthiness, a value whose "empty" form stands for "absent".
 */
module Telegram {
  import opened Wrappers

  type ChatId = int
  type UserId = int
  type MessageId = int

  /** `chat.type` is one of "private", "group", "supergroup", "channel". */
  datatype Chat = Chat(id: ChatId, chatType: string)

  /** A message entity: `kind` is the API's `type` ("bot_command", "bold", ...),
      `offset` and `length` locate it in the message text. */
  datatype Entity = Entity(kind: string, offset: nat, length: nat)

  /**
    A message. `text` is "" when the message has no text (the code only
    tests `message.text` for truthiness, which treats both alike), and
    `entities` is [] when the message has none.
   */
  datatype Message = Message(
    messageId: MessageId,
    chat: Chat,
    sender: UserId,
    text: string,
    entities: seq<Entity>,
    replyTo: Option<Message>,
    mediaGroupId: Option<string>)

  /** A press on an inline button: `data` is the pressed button's callback data. */
  datatype CallbackQuery = CallbackQuery(id: string, sender: UserId, message: Message, data: string)

  /** The one optional payload of an update that the bot looks at. */
  datatype Payload =
    | MessageUpdate(message: Message)
    | CallbackQueryUpdate(query: CallbackQuery)
    | OtherUpdate

  datatype Update = Update(updateId: int, payload: Payload)
}

=== FILE: wrappers.dfy ===
/** The bot's code signals "no value" with `undefined` or `null`; the model uses Option. */
module Wrappers {

  datatype Option<+T> = None | Some(value: T)
}
